=== FILE: README.md ===
# pyin-rs pitch detectors, modelled in Dafny

This project models the two monophonic pitch detectors of the pyin-rs crate:

- **YIN** finds the first dip of the cumulative-mean-normalised difference
  function below a fixed threshold. It refines that dip by parabolic
  interpolation and reports the sample rate over the refined period. It
  reports 0 when no dip exists.
- **PYIN** runs the same dip search at one hundred thresholds, `0.025` up to
  `2.5`. Each found lag collects the Beta-prior weight of the thresholds
  that found it, and each lag becomes a weighted pitch candidate. A
  hidden-Markov pitch tracker then picks the frequency: 108 semitone bins,
  each on a voiced (primary) and an unvoiced (shadow) track. PYIN reports -1
  when there is nothing to track.

Modules (numbers are `real`): `Numeric` holds shared helpers, `src/hmm.rs` is split into the chain it builds and the tracker that uses it, and every other module follows one source file.

- `Numeric`: `Option`, `Result`, sums of sequences, and the float-to-integer
  conversions the source uses (floor, ceiling, rounding half away from zero,
  the saturating cast to `usize`).
- `YinCore` (`src/core.rs`):
  - the difference function over a given autocorrelation;
  - the cumulative-mean normalisation (CMND), as a function and as the
    in-place running-sum loop;
  - preprocessing, with its size check as an error;
  - the lag range for an optional frequency band;
  - the threshold search, as written and corrected;
  - parabolic interpolation.
- `Yin` (`src/yin.rs`): the YIN detector end to end.
- `HmmChain` (`src/hmm.rs`, `build_hmm`):
  - the triangular-window transition matrix;
  - the identity emission matrix;
  - the uniform initial distribution.
- `PitchHmm` (`src/hmm.rs`, `bin_pitches` and `inference`):
  - binding candidates to the nearest bin;
  - rescaling the voiced mass by the tracker's trust;
  - expanding slot masses into a sorted observation sequence;
  - the majority vote over the decoded path.
- `Pyin` (`src/pyin.rs`):
  - the hundred-threshold candidate generation;
  - the PYIN detector end to end.

Where the source uses `f64::abs`, `floor`, `ceil`, `round` and casts, the
model writes out the same rounding and saturation on reals.

## Model

| member | source | states |
|---|---|---|
| YinCore.ComputeDifference | src/core.rs:40-47 | The loop writes every lag `tau` below the buffer size as `r[0] + r[1] - 2 r[tau]` from the autocorrelation `r`, and the result has the buffer's length. |
| YinCore.DifferenceReversesOrder | src/core.rs:44-46 | The difference at lag `a` is at most that at `b` exactly when the autocorrelation at `a` is at least that at `b`. The two differences differ by twice the autocorrelation gap. |
| YinCore.Cmnd | src/core.rs:50-59 | Lag 0 becomes 1. Every later lag, multiplied by the mean of the differences at lags 1 through itself, gives back its difference value. |
| YinCore.CmndIsMeanNormalised | src/core.rs:55-57 | Scaling by `tau` over the running sum is division by the running mean of lags `1..tau`. |
| YinCore.CmndInPlace | src/core.rs:50-59 | The in-place running-sum loop yields the cumulative-mean-normalised buffer: lag 0 is 1, and each later lag times its running mean is its difference. |
| YinCore.Preprocess | src/core.rs:61-68 | A frame of the wrong length fails with a size mismatch. An input size below 2 fails, because the normalisation writes lag 0 of an empty buffer. Otherwise the result is the normalised buffer of `inputSize / 2` lags, with lag 0 equal to 1. |
| YinCore.CalculateTauRange | src/core.rs:71-90 | Without a band the range is `[2, size)`. With a band, the start is at least 2 and the end is at most the buffer size. |
| YinCore.TauRangeMatchesBand | src/core.rs:79-84 | For a band `0 < low < high`, every lag in the range has `sr / tau > low`, and every lag in it except the first has `sr / tau < high`. Every lag from 2 below the buffer size whose frequency lies strictly inside the band is in the range. |
| YinCore.BandAboveSampleRateReversesRange | src/core.rs:79-84 | A band above the sample rate (50–60 kHz at 44.1 kHz) gives the reversed range `[2, 1)`. |
| YinCore.Descend | src/core.rs:105-107 | Walking forward while the next in-range value is strictly smaller stops at a lag whose successor is not smaller (or at the range end). The values strictly decrease on the way. |
| YinCore.ScanEnd | src/core.rs:100-111 | The nested loops stop at the end of an ordered range exactly when no value is below the threshold. Otherwise they stop at a dip. A reversed range leaves the start untouched. |
| YinCore.DipExtendsBack | src/core.rs:103-110 | A lag at or above the threshold does not change the dip found after it. |
| YinCore.ThresholdAsWritten | src/core.rs:97-117 | The search with the final `tau == max` check fails with an out-of-bounds read exactly when the range is reversed and starts at or past the buffer's end. Otherwise it returns -1 or a lag below the threshold where the loops stopped. On a reversed range that lag is `start`, returned whenever `buffer[start]` is below the threshold. |
| YinCore.Threshold | src/core.rs:92-117 | The corrected search returns -1 exactly when no value in range is below the threshold. Otherwise it returns a dip: the first sub-threshold lag in range, followed down while values strictly decrease. |
| YinCore.ThresholdSearch | src/core.rs:97-117 | The nested scanning loops compute the corrected search's result. |
| YinCore.ThresholdAgreesOnOrderedRanges | src/core.rs:112 | On a range with `start <= end`, the search as written and the corrected search agree. |
| YinCore.ThresholdAsWrittenEscapesRange | src/core.rs:112 | On the reversed range `[2, 1)`, the search as written returns lag 2, which lies outside the range. The corrected search returns -1. |
| YinCore.LowBandReadsPastBuffer | src/core.rs:112 | The band 20–40 Hz at 44.1 kHz over 1024 lags gives the reversed range `[1102, 1024)`. On it, the search as written reads past the buffer for every buffer and threshold, where the corrected search returns -1. |
| YinCore.ThresholdFoundIsMonotone | src/core.rs:103-104 | If a threshold finds a dip, every larger threshold finds one too. |
| YinCore.ParabolicInterpolation | src/core.rs:119-139 | At lag 0 the result is the lower of lags 0 and 1. At or past the last lag the result is the previous lag. A flat neighbourhood leaves the lag unchanged. |
| YinCore.InterpolationIsParabolaVertex | src/core.rs:129-137 | Inside the buffer, the refined lag is the vertex of the parabola through the three samples around the lag. The parabola passes through the samples, and the vertex is its minimum when it opens upwards and its maximum when it opens downwards. |
| YinCore.LagFrequency | src/yin.rs:28-29 | The frequency of a lag times its refined period is the sample rate, and the frequency is 0 exactly when the sample rate is 0. PYIN converts lags the same way (src/pyin.rs:59). |
| YinCore.InterpolationWithinHalfSample | src/core.rs:129-137 | At a local minimum, the refined lag is within half a sample of the lag. |
| Yin.PitchOf | src/yin.rs:24-32 | With no value in range below the threshold the frequency is 0. Otherwise it is the sample rate over the refined period of the found lag. |
| Yin.NoPitchExactlyWhenNoDip | src/yin.rs:27-32 | With a positive sample rate, YIN reports 0 exactly when no lag in range is below the threshold. |
| Yin.PitchComesFromDip | src/yin.rs:24-32 | A non-zero YIN result is the sample rate over the refined period of a dip: a lag in the band's range below the threshold, reached by descending from the first sub-threshold lag. Without a band the range is `[2, len)`. |
| Yin.PitchOfAsWritten | src/yin.rs:24-32 | YIN with the search as written fails exactly where that search reads past the buffer. It agrees with `Yin.PitchOf` on every ordered range. On a reversed range it reports the frequency of lag `start` when `buffer[start]` is below the threshold, and 0 otherwise. |
| Yin.AsWrittenReportsLagOutsideRange | src/yin.rs:24-32 | For the buffer `[1, 1, 0.05, 1]` on `[2, 1)` at 44.1 kHz, YIN with the search as written reports 22050 Hz, where the corrected YIN reports 0. |
| Yin.PitchNearLag | src/yin.rs:27-29 | When the found lag is a local minimum inside the buffer, the frequency times `tau - 1/2` is at most the sample rate, and the sample rate is at most the frequency times `tau + 1/2`. |
| Yin.Pitch | src/yin.rs:21-36 | The detector fails exactly when preprocessing fails, with its error. Otherwise it reports the frequency of the normalised frame over the band's lag range. |
| HmmChain.BinOf | src/hmm.rs:97-100 | Each of the 216 states belongs to one of the 108 bins: primary states are their own bin, and shadow state `i + 108` belongs to bin `i`. |
| HmmChain.WindowIsClippedNeighbourhood | src/hmm.rs:69-80 | The transition window of bin `i` is `[i - 6, i + 6]` clipped to the bins. A bin is in the window exactly when it is at most 6 semitones from `i`. |
| HmmChain.RawWeight | src/hmm.rs:85-90 | The unnormalised weight from `i` to `j` is `7 - abs(i - j)`, between 1 and 7, and equals 7 only at `j == i`. This holds also where the window is clipped at the low end. |
| HmmChain.RowWeights | src/hmm.rs:82-93 | The weight loop produces the window's weights and their sum, which is at least 7. |
| HmmChain.NormWeight | src/hmm.rs:96 | A normalised weight is non-negative, and it is positive exactly inside the window. |
| HmmChain.BinRows | src/hmm.rs:95-101 | The fill loop of bin `i` writes exactly the primary row `i` and the shadow row `i + 108` of the transition matrix. Cells outside the window stay 0. |
| HmmChain.BuildTransition | src/hmm.rs:66-102 | The matrix is 216 by 216. Every row sums to 1, and every cell equals the transition probability. |
| HmmChain.TransitionRowIsStochastic | src/hmm.rs:95-101 | Every row of the transition matrix sums to 1. |
| HmmChain.TrackSliceSum | src/hmm.rs:97-100 | A row puts weight 0.99 on staying on its track and 0.01 on switching tracks. |
| HmmChain.TransitionTrackStructure | src/hmm.rs:97-100 | Shadow rows mirror primary rows with the tracks swapped. Staying on a track is 99 times as likely as switching, and the two together carry the normalised weight. |
| HmmChain.BuildHmm | src/hmm.rs:59-109 | The initial distribution is uniform over the 216 states and sums to 1. The transition matrix is stochastic and equals the transition probabilities. The emission matrix is the identity. |
| PitchHmm.FindBin | src/hmm.rs:124-134 | A candidate is bound to the bin before the first bin whose distance strictly exceeds its predecessor's. Distances do not increase up to that bin. No bin is bound when distances never increase. |
| PitchHmm.FindBinIsNearest | src/hmm.rs:124-134 | With increasing reference frequencies, the bound bin is a nearest bin to the candidate. A candidate bound to no bin is nearest to the last bin. |
| PitchHmm.LastInBin | src/hmm.rs:119-135 | The candidate reported for a bin is bound to it and sits at a position after which no candidate is bound to that bin. The result is none exactly when no candidate is bound to it. |
| PitchHmm.AssignCandidate | src/hmm.rs:127-130 | A candidate bound to no bin changes nothing. A bound candidate overwrites its bin's probability and frequency, adds its probability to the matched mass, and leaves every other slot and bin unchanged. |
| PitchHmm.BinAll | src/hmm.rs:111-135 | After binning, each bin holds the probability and frequency of the last candidate bound to it (0 otherwise). The matched mass is the sum over all bound candidates. The shadow and trailing slots are 0. |
| PitchHmm.PrimaryMassAtMostMatched | src/hmm.rs:127-130 | With non-negative probabilities, overwriting only loses mass: the primary slots hold at most the matched mass. |
| PitchHmm.SameBinOverwrites | src/hmm.rs:127-130 | Of two candidates bound to the same bin, the later one's probability and frequency replace the earlier one's. Both still count towards the matched mass. |
| PitchHmm.Rescale | src/hmm.rs:137-144 | When mass was matched, primary slots are scaled by the trust. Each shadow slot gets `(1 - trust * matched) / 108`. The trailing slot is untouched. |
| PitchHmm.RescaledTotal | src/hmm.rs:137-144 | The rescaled slots sum to 1 minus the trusted share of the mass lost by overwriting. |
| PitchHmm.RescaledMassAtMostOne | src/hmm.rs:137-144 | With non-negative probabilities and trust, the observation masses sum to at most 1. |
| PitchHmm.RoundCount | src/hmm.rs:147 | A slot's count is 0 when 100 times its mass is below one half (negative masses included). Otherwise it is within one half of 100 times the mass, with halves rounded up. |
| PitchHmm.Observations | src/hmm.rs:146-150 | The observation sequence is sorted. Each slot index occurs as often as 100 times its mass, rounded half away from zero (negatives give 0). No other index occurs. |
| PitchHmm.ObservationsAreStates | src/hmm.rs:114-150 | The trailing slot never receives mass, so every observation is one of the 216 states. |
| PitchHmm.MostFrequent | src/hmm.rs:168-184 | The tally picks a primary bin visited at least as often as every other primary bin. It picks bin 0 when no primary bin is visited. |
| PitchHmm.Inference | src/hmm.rs:155-187 | No candidates, or an empty observation sequence, gives -1. Otherwise the result is the bound frequency of a most-visited primary bin of the decoded path. |
| PitchHmm.InferenceReportsCandidate | src/hmm.rs:155-187 | The tracker reports -1, 0 (a bin no candidate was bound to), or the frequency of one of the candidates. |
| Pyin.ThresholdAt | src/pyin.rs:48-49 | The `n`-th threshold is `(n + 1) * 0.025`, in `(0, 2.5]` for the hundred thresholds. |
| Pyin.FailuresFormPrefix | src/pyin.rs:48-50 | Once a threshold finds a lag, every later threshold finds one too. |
| Pyin.SearchesInRange | src/pyin.rs:48-50 | There is one search result per threshold, and every lag a search finds lies in the lag range. |
| Pyin.LagDistribution | src/pyin.rs:46-55 | A frame's distribution holds exactly the lags found by some threshold's corrected search. Each is weighted by the prior of the thresholds that found it. |
| Pyin.Accumulate | src/pyin.rs:46-55 | Given the search results of the thresholds, the accumulated map's keys are exactly the lags some threshold found. Each key's weight is the prior weight of the thresholds that found it. |
| Pyin.AccumulatedLagsInside | src/pyin.rs:48-55 | When every search result lies in a range, so does every key of the accumulated map. |
| Pyin.UnfoundLagHasNoWeight | src/pyin.rs:52-54 | A lag no threshold found collects no weight. |
| Pyin.FoundMassAtMostPrior | src/pyin.rs:48-55 | With a non-negative prior, the weight the found lags collect is between 0 and the total prior. It equals the total prior when every threshold finds a lag. |
| Pyin.FoundMassSpreadsOverRange | src/pyin.rs:48-55 | When every search result lies in a range, the weight of the thresholds that found a lag equals the sum, over the lags of the range, of each lag's weight. |
| Pyin.DistributionLags | src/pyin.rs:48-60 | Every lag of a frame's distribution lies in the lag range and has a non-zero refined period, so the division that turns it into a frequency is defined. |
| Pyin.CandidatesFrom | src/pyin.rs:57-64 | Each candidate is the sample rate over the refined period of a lag of the map, with that lag's weight. No candidate has frequency 0, and a zero sample rate gives no candidates. |
| Pyin.CandidatesFromComplete | src/pyin.rs:57-64 | With a positive sample rate, every lag of the map in the range yields the candidate carrying its frequency and its weight. |
| Pyin.CandidatesPerLag | src/pyin.rs:57-64 | There are at most as many candidates as lags of the map in the range. With a positive sample rate there are exactly as many. |
| Pyin.CandidatesFromMass | src/pyin.rs:57-64 | With a positive sample rate, the candidates' total probability is the map's total weight over the range. |
| Pyin.ProbabilisticThreshold | src/pyin.rs:42-67 | Every candidate comes from a found lag in range, with that lag's accumulated weight and a non-zero frequency. A zero sample rate gives no candidates. |
| Pyin.CandidatesOnePerLag | src/pyin.rs:42-67 | With a positive sample rate, each lag of the frame's distribution yields the candidate with its frequency and accumulated weight, and there are exactly as many candidates as lags. |
| Pyin.SearchesAgreeOnOrderedRanges | src/pyin.rs:48-50 | On an ordered range, each threshold's search as written succeeds with the result the model's searches hold. |
| Pyin.CandidateMassIsFoundMass | src/pyin.rs:42-67 | With a positive sample rate, the candidates carry exactly the prior weight of the thresholds that found a lag. |
| Pyin.NoCandidatesExactlyWhenNoDip | src/pyin.rs:42-67 | With a positive sample rate, there are no candidates exactly when no value in range is below the largest threshold, 2.5. |
| Pyin.CandidatesAtMostThresholds | src/pyin.rs:48-64 | There are at most one hundred candidates, one per distinct found lag. |
| Pyin.PitchOf | src/pyin.rs:71-77 | A zero sample rate, or no value in range below 2.5, gives -1. |
| Pyin.PitchIsFoundLagFrequency | src/pyin.rs:71-77 | PYIN reports -1, 0, or the sample rate over the refined period of a lag some threshold found in range. |
| Pyin.Pitch | src/pyin.rs:71-77 | The detector fails exactly when preprocessing fails, with its error. Otherwise it reports PYIN's frequency for the normalised frame. |

## Left out

- The spectral transform (`src/fft.rs`, `auto_correlate` at src/core.rs:26-38) is not part of this model. Its output, the autocorrelation `r`, is a parameter of `Preprocess`. `fft.clear()` only resets that transform's buffers and is omitted.
- `build_bins` (src/hmm.rs:47-57) uses `powf`/`powi`. The reference frequencies are a parameter `bins` of the tracker.
- The Viterbi decoding of the external `bio` crate (src/hmm.rs:166) is a function parameter `decode`. The chain it runs over is modelled by `HmmChain.BuildHmm`.
- PitchHmm.MostFrequent: the source iterates a `HashMap`, so among equally visited bins the winner depends on hash order. The contract states only that the winner is most visited, and the model keeps the lowest such bin.
- Pyin.CandidatesFrom: candidates are listed in ascending lag order. The source lists them in `HashMap` order, which is unspecified. The stated properties (mass, provenance, count, emptiness) do not depend on the order. The tracker's result can depend on it only when two candidates fall into the same bin.
- Floating point is modelled by `real`. NaN, infinities, signed zero and rounding error are not modelled. `f0 != -0.0` (src/pyin.rs:61) is therefore `f0 != 0`. The `f32` samples and threshold of `Yin` are also reals.
- YinCore.Cmnd and YinCore.CmndInPlace require every running sum to be non-zero. There the source would divide by zero and produce an infinity or NaN.
- YinCore.Preprocess inherits that requirement, so it excludes every frame whose difference values have a zero running sum. This includes the silent (all-zero) frame and every frame with a constant autocorrelation, whose first difference value is 0. The source accepts them. Its normalised values are NaN (0 times infinity), no NaN is below a threshold, and with every running sum zero on an ordered range its search returns -1.
- Yin.PitchOf, Yin.PitchOfAsWritten and Pyin.ProbabilisticThreshold require the refined period of each found lag to be non-zero, where the source would divide by zero.
- YinCore.CalculateTauRange: the float-to-`usize` cast saturates at 0 below. Saturation at the top of `usize` is not modelled, so `ValidFrequencyRange` excludes a band edge of zero, which the source accepts. With a positive sample rate, `sr / 0.0` is infinite and the cast gives `usize::MAX`. A zero low edge therefore ends the lag range at the buffer size. A zero high edge starts it at `usize::MAX`, a reversed range past the buffer. With a zero sample rate the quotient is NaN and the cast gives 0.
- Yin.PitchOf is built on the corrected search. It differs from the source on a reversed range (`start > end`). Examples: a band above the sample rate; a band so low that its lags lie past the buffer; an inverted band (`low > high`); a negative low edge, e.g. -100 to 200 Hz at 44.1 kHz gives `[220, 0)`; a buffer of one lag (input size 2 or 3) without a band, which gives `[2, 1)`. There the source reports the frequency of lag `start`, or panics when `start` is past the buffer, while the model reports 0. Yin.PitchOfAsWritten models the source's behaviour and agrees with Yin.PitchOf on every ordered range.
- Yin.NoPitchExactlyWhenNoDip is stated of the corrected detector. On a reversed range the source can report a non-zero pitch although the range holds no lag.
- Yin.PitchComesFromDip is stated of the corrected detector. On a reversed range the source's non-zero result comes from lag `start`, outside the range.
- Yin.Pitch composes preprocessing with the corrected detector. It differs from the source on reversed ranges, as for Yin.PitchOf. It also excludes frames with a zero running sum, as YinCore.Preprocess does; there the source reports 0 when every running sum is zero and the range is ordered.
- Pyin.SearchesInRange is stated of the corrected search. On a reversed range the source's search returns lag `start`, outside the range, wherever `buffer[start]` is below the threshold. Pyin.SearchesAgreeOnOrderedRanges shows that the two agree on every ordered range.
- Pyin.LagDistribution is built on the corrected search. On a reversed range the source's map can hold lag `start`, outside the range, where the model's map has no such lag. Example: over `[2, 1)` on the buffer `[1, 1, 0.05, 1]`, the thresholds from 0.075 up find lag 2. When `start` is past the buffer the source panics instead. Pyin.SearchesAgreeOnOrderedRanges shows that the two agree on every ordered range.
- Pyin.DistributionLags is stated of the corrected search. On a reversed range the source's distribution can hold lag `start`, outside the range.
- Pyin.ProbabilisticThreshold uses the corrected search. On a reversed range the source can build a candidate from lag `start`, or panic when `start` is past the buffer, where the model has no candidates.
- Pyin.NoCandidatesExactlyWhenNoDip is stated of the corrected search. On a reversed range the source can have a candidate from lag `start` although the range is empty.
- Pyin.PitchOf uses the corrected search. On a reversed range it returns -1 where the source can track the candidate built from lag `start`.
- Pyin.PitchIsFoundLagFrequency is stated of the corrected search. On a reversed range the source's reported lag can lie outside the range.
- Pyin.Pitch composes preprocessing with the corrected PYIN detector. It differs from the source on reversed ranges, as for Pyin.PitchOf. It also excludes frames with a zero running sum, as YinCore.Preprocess does; there the source reports -1 when every running sum is zero and the range is ordered.
- Yin.Pitch and Pyin.Pitch: the `panic!` on a size mismatch and the out-of-bounds write of an empty buffer are modelled as `Failure` results.
- PitchHmm.Rescale: the source multiplies the primary slots by `prob_really_pitched / prob_pitched`. Over the reals that ratio is exactly the trust, which is what the model multiplies by.
- The prior weights are a parameter `prior` of the candidate generation. The detector passes `Pyin.BetaDistribution`, the hundred tabulated weights of src/pyin.rs:13-26.
- The crate's trait documentation (src/lib.rs:16) says an undetected pitch is reported as 0.0. PYIN reports -1 (src/hmm.rs:156-164), and the model follows the code.
- The unit and integration tests (`tests/`) use audio files and sine synthesis. They are not modelled.

## Findings

| source | as written | input that shows it | evidently intended | confidence | as-written member | corrected member |
|---|---|---|---|---|---|---|
| src/core.rs:112 | The final check `tau == max` assumes the scan stopped at or before `max`. A reversed range (`start > end`) skips the loop and leaves `tau == start > max`. The check then reads `buffer[start]`. It returns a lag outside the range, or panics when `start` is past the buffer. | A band above the sample rate, e.g. 50–60 kHz at 44.1 kHz, gives the range `[2, 1)`. The buffer `[1.0, 1.0, 0.05, 1.0]` with threshold 0.1 then returns 2, and YIN reports 22050 Hz. The band 20–40 Hz at 44.1 kHz over 1024 lags gives `[1102, 1024)`, and the read of `buffer[1102]` panics. | `tau >= max`: an empty or reversed range yields -1. | not executed | YinCore.ThresholdAsWritten (exhibited by YinCore.ThresholdAsWrittenEscapesRange, YinCore.BandAboveSampleRateReversesRange, YinCore.LowBandReadsPastBuffer and Yin.AsWrittenReportsLagOutsideRange) | YinCore.Threshold (agreement on ordered ranges: YinCore.ThresholdAgreesOnOrderedRanges) |

=== FILE: core.dfy ===
/** The YIN engine: difference function over a given autocorrelation,
    cumulative-mean normalisation, the lag range derived from a frequency
    band, the absolute-threshold local-minimum search and parabolic
    interpolation. Samples are `real`; the autocorrelation produced by the
    spectral transform is an input. */
module YinCore {
  import opened Numeric

  /** Engine configuration. The difference buffer holds `inputSize / 2` lags. */
  datatype Core = Core(inputSize: nat, sampleRate: nat)
  {
    function BufferSize(): nat { inputSize / 2 }
  }

  datatype Error =
    | InputSizeMismatch      // the audio buffer does not have `inputSize` samples
    | EmptyDifferenceBuffer  // `inputSize < 2`: normalisation writes lag 0 of an empty buffer
    | LagOutOfBounds         // the search as written reads the buffer at a lag past its end

  /** A half-open lag interval `[start, end)`; nothing forces `start <= end`. */
  datatype TauRange = TauRange(start: nat, end: nat)

  /** A half-open frequency band `[low, high)` in Hz. */
  datatype FrequencyRange = FrequencyRange(low: real, high: real)

  // ---------------------------------------------------------------------------
  // Difference function

  /** The difference value at lag `tau`: fixed energy terms `r[0] + r[1]`
      minus twice the autocorrelation at `tau`. */
  function DifferenceAt(r: seq<real>, tau: nat): real
    requires 2 <= |r| && tau < |r|
  {
    r[0] + r[1] - 2.0 * r[tau]
  }

  function Difference(r: seq<real>, size: nat): seq<real>
    requires size <= |r|
    requires size > 0 ==> 2 <= |r|
  {
    seq(size, tau requires 0 <= tau < size => DifferenceAt(r, tau))
  }

  /** The loop that fills the difference buffer lag by lag. */
  method ComputeDifference(r: seq<real>, size: nat) returns (d: seq<real>)
    requires size <= |r|
    requires size > 0 ==> 2 <= |r|
    ensures |d| == size
    ensures forall tau :: 0 <= tau < size ==> d[tau] == r[0] + r[1] - 2.0 * r[tau]
    ensures d == Difference(r, size)
  {
    d := seq(size, _ => 0.0);
    for tau := 0 to size
      invariant |d| == size
      invariant forall k :: 0 <= k < tau ==> d[k] == DifferenceAt(r, k)
    {
      d := d[tau := DifferenceAt(r, tau)];
    }
  }

  /** The difference function reverses the order of the autocorrelation: a
      lag with larger correlation has a smaller difference, so the minima the
      search looks for are the correlation peaks. */
  lemma DifferenceReversesOrder(r: seq<real>, size: nat, a: nat, b: nat)
    requires size <= |r| && 2 <= |r|
    requires a < size && b < size
    ensures Difference(r, size)[a] <= Difference(r, size)[b] <==> r[b] <= r[a]
    ensures Difference(r, size)[a] - Difference(r, size)[b] == 2.0 * (r[b] - r[a])
  {
  }

  // ---------------------------------------------------------------------------
  // Cumulative mean normalised difference

  /** The running sum after lag `tau`: the difference values at lags `1..tau`. */
  function PrefixSum(d: seq<real>, tau: nat): real
    requires tau < |d|
  {
    Sum(d[1..tau + 1])
  }

  lemma PrefixSumStep(d: seq<real>, tau: nat)
    requires 1 <= tau < |d|
    ensures PrefixSum(d, tau) == PrefixSum(d, tau - 1) + d[tau]
  {
    assert d[1..tau + 1][..tau - 1] == d[1..tau];
  }

  /** Every running sum the normalisation divides by is nonzero. */
  predicate CmndDefined(d: seq<real>)
  {
    forall tau :: 1 <= tau < |d| ==> PrefixSum(d, tau) != 0.0
  }

  /** The normalised value at lag `tau >= 1`: the difference value scaled by
      `tau` over the running sum. */
  function NormalisedAt(d: seq<real>, tau: nat): real
    requires 1 <= tau < |d| && CmndDefined(d)
  {
    d[tau] * (tau as real / PrefixSum(d, tau))
  }

  /** Lag 0 becomes 1; every other lag is divided by the mean of the
      difference values at lags `1..tau`, so multiplying back by that mean
      recovers the difference value. */
  function Cmnd(d: seq<real>): (c: seq<real>)
    requires 1 <= |d|
    requires CmndDefined(d)
    ensures |c| == |d| && c[0] == 1.0
    ensures forall tau :: 1 <= tau < |d| ==> c[tau] * Mean(d[1..tau + 1]) == d[tau]
  {
    var c := seq(|d|, tau requires 0 <= tau < |d| => if tau == 0 then 1.0 else NormalisedAt(d, tau));
    CmndIsMeanNormalised(d, c);
    c
  }

  lemma CmndIsMeanNormalised(d: seq<real>, c: seq<real>)
    requires |c| == |d| && CmndDefined(d)
    requires forall tau :: 1 <= tau < |d| ==> c[tau] == NormalisedAt(d, tau)
    ensures forall tau :: 1 <= tau < |d| ==> c[tau] * Mean(d[1..tau + 1]) == d[tau]
  {
    forall tau | 1 <= tau < |d|
      ensures c[tau] * Mean(d[1..tau + 1]) == d[tau]
    {
      assert Mean(d[1..tau + 1]) == PrefixSum(d, tau) / tau as real;
      ScaleCancels(d[tau], tau as real, PrefixSum(d, tau));
    }
  }

  /** Scaling by `n / s` and then by `s / n` gives back the value. */
  lemma ScaleCancels(x: real, n: real, s: real)
    requires n != 0.0 && s != 0.0
    ensures x * (n / s) * (s / n) == x
  {
    assert (n / s) * (s / n) == 1.0;
  }

  /** The in-place normalisation loop with its running sum. */
  method CmndInPlace(d: seq<real>) returns (c: seq<real>)
    requires 1 <= |d|
    requires CmndDefined(d)
    ensures |c| == |d| && c[0] == 1.0
    ensures forall tau :: 1 <= tau < |d| ==> c[tau] * Mean(d[1..tau + 1]) == d[tau]
    ensures c == Cmnd(d)
  {
    var runningSum := 0.0;
    c := d[0 := 1.0];
    for tau := 1 to |d|
      invariant |c| == |d| && c[0] == 1.0
      invariant runningSum == PrefixSum(d, tau - 1)
      invariant forall k :: 1 <= k < tau ==> c[k] == NormalisedAt(d, k)
      invariant forall k :: tau <= k < |d| ==> c[k] == d[k]
    {
      PrefixSumStep(d, tau);
      runningSum := runningSum + c[tau];
      assert c[tau] * (tau as real / runningSum) == NormalisedAt(d, tau);
      c := c[tau := c[tau] * (tau as real / runningSum)];
    }
    NormalisedIsCmnd(d, c);
    CmndIsMeanNormalised(d, c);
  }

  /** A buffer with 1 at lag 0 and the normalised value at every later lag
      is the normalised buffer. */
  lemma NormalisedIsCmnd(d: seq<real>, c: seq<real>)
    requires 1 <= |d| && CmndDefined(d)
    requires |c| == |d| && c[0] == 1.0
    requires forall k :: 1 <= k < |d| ==> c[k] == NormalisedAt(d, k)
    ensures c == Cmnd(d)
  {
  }

  /** Fills the difference buffer from the autocorrelation `r` of `audio` and
      normalises it. `r` stands for the spectral transform's output, which is
      sized like the transform input. */
  function Preprocess(core: Core, audio: seq<real>, r: seq<real>): (res: Result<seq<real>, Error>)
    requires |r| == core.inputSize
    requires core.BufferSize() >= 1 ==> CmndDefined(Difference(r, core.BufferSize()))
    ensures |audio| != core.inputSize ==> res == Failure(InputSizeMismatch)
    ensures |audio| == core.inputSize && core.BufferSize() == 0 ==> res == Failure(EmptyDifferenceBuffer)
    ensures res.Success? <==> |audio| == core.inputSize && core.BufferSize() >= 1
    ensures res.Success? ==> |res.value| == core.BufferSize() && res.value[0] == 1.0
    ensures res.Success? ==> forall tau :: 1 <= tau < |res.value| ==>
      var d := Difference(r, core.BufferSize());
      res.value[tau] * Mean(d[1..tau + 1]) == d[tau]
  {
    if |audio| != core.inputSize then Failure(InputSizeMismatch)
    else if core.BufferSize() == 0 then Failure(EmptyDifferenceBuffer)
    else Success(Cmnd(Difference(r, core.BufferSize())))
  }

  // ---------------------------------------------------------------------------
  // Lag range

  /** Frequencies are divided into the sample rate, so they must be nonzero. */
  predicate ValidFrequencyRange(range: Option<FrequencyRange>)
  {
    range.Some? ==> range.value.low != 0.0 && range.value.high != 0.0
  }

  function CalculateTauRange(size: nat, sampleRate: nat, range: Option<FrequencyRange>): (tr: TauRange)
    requires ValidFrequencyRange(range)
    ensures range.None? ==> tr == TauRange(2, size)
    ensures tr.start >= 2 && tr.end <= size
  {
    match range
    case None => TauRange(2, size)
    case Some(band) =>
      var sr := sampleRate as real;
      var lo := SaturateToNat(FloorOf(sr / band.high));
      var hi := SaturateToNat(CeilOf(sr / band.low));
      TauRange(if lo < 2 then 2 else lo, if hi < size then hi else size)
  }

  /** For a proper band `0 < low < high`, every lag in the range except
      possibly its first corresponds to a frequency strictly inside the band,
      and every lag from 2 below the buffer size whose frequency lies strictly
      inside the band is in the range. */
  lemma TauRangeMatchesBand(size: nat, sampleRate: nat, low: real, high: real, tau: nat)
    requires 0.0 < low < high && sampleRate > 0
    ensures var tr := CalculateTauRange(size, sampleRate, Some(FrequencyRange(low, high)));
      && (tr.start <= tau < tr.end ==> tau as real * low < sampleRate as real)
      && (tr.start < tau < tr.end ==> sampleRate as real < tau as real * high)
      && (2 <= tau < size && tau as real * low < sampleRate as real && sampleRate as real < tau as real * high
          ==> tr.start <= tau < tr.end)
  {
    var tr := CalculateTauRange(size, sampleRate, Some(FrequencyRange(low, high)));
    if tr.start <= tau < tr.end {
      TauRangeAboveLow(size, sampleRate, low, high, tau);
    }
    if tr.start < tau < tr.end {
      TauRangeBelowHigh(size, sampleRate, low, high, tau);
    }
    if 2 <= tau < size && tau as real * low < sampleRate as real && sampleRate as real < tau as real * high {
      TauRangeCoversBand(size, sampleRate, low, high, tau);
    }
  }

  lemma TauRangeAboveLow(size: nat, sampleRate: nat, low: real, high: real, tau: nat)
    requires 0.0 < low < high && sampleRate > 0
    requires var tr := CalculateTauRange(size, sampleRate, Some(FrequencyRange(low, high)));
      tr.start <= tau < tr.end
    ensures tau as real * low < sampleRate as real
  {
    var sr := sampleRate as real;
    var ce := CeilOf(sr / low);
    assert tau < ce;
    assert tau as real < sr / low;
    BelowQuotient(tau as real, sr, low);
  }

  lemma TauRangeBelowHigh(size: nat, sampleRate: nat, low: real, high: real, tau: nat)
    requires 0.0 < low < high && sampleRate > 0
    requires var tr := CalculateTauRange(size, sampleRate, Some(FrequencyRange(low, high)));
      tr.start < tau < tr.end
    ensures sampleRate as real < tau as real * high
  {
    var sr := sampleRate as real;
    var fl := FloorOf(sr / high);
    assert fl < tau;
    assert sr / high < tau as real;
    AboveQuotient(sr, high, tau as real);
  }

  lemma TauRangeCoversBand(size: nat, sampleRate: nat, low: real, high: real, tau: nat)
    requires 0.0 < low < high && sampleRate > 0
    requires 2 <= tau < size
    requires tau as real * low < sampleRate as real && sampleRate as real < tau as real * high
    ensures var tr := CalculateTauRange(size, sampleRate, Some(FrequencyRange(low, high)));
      tr.start <= tau < tr.end
  {
    var sr := sampleRate as real;
    var t := tau as real;
    DivideStrict(t * low, sr, low);
    DivideStrict(sr, t * high, high);
    ProductQuotient(t, low);
    ProductQuotient(t, high);
    assert FloorOf(sr / high) < tau;
    assert tau < CeilOf(sr / low);
  }

  lemma MultiplyStrict(x: real, y: real, c: real)
    requires x < y && c > 0.0
    ensures x * c < y * c
  {
  }

  lemma DivideStrict(x: real, y: real, c: real)
    requires x < y && c > 0.0
    ensures x / c < y / c
  {
  }

  lemma BelowQuotient(t: real, s: real, c: real)
    requires c > 0.0 && t < s / c
    ensures t * c < s
  {
    MultiplyStrict(t, s / c, c);
    QuotientTimesDivisor(s, c);
  }

  lemma AboveQuotient(s: real, c: real, t: real)
    requires c > 0.0 && s / c < t
    ensures s < t * c
  {
    MultiplyStrict(s / c, t, c);
    QuotientTimesDivisor(s, c);
  }

  lemma ProductQuotient(t: real, c: real)
    requires c != 0.0
    ensures (t * c) / c == t
  {
  }

  // ---------------------------------------------------------------------------
  // Absolute-threshold search

  /** Walk forward from `tau` while the next in-range value is strictly smaller. */
  function Descend(b: seq<real>, tau: nat, end: nat): (t: nat)
    requires tau < end <= |b|
    ensures tau <= t < end
    ensures b[t] <= b[tau]
    ensures t + 1 == end || b[t + 1] >= b[t]
    ensures StrictlyDecreasing(b, tau, t)
    decreases end - tau
  {
    if tau + 1 < end && b[tau + 1] < b[tau] then Descend(b, tau + 1, end) else tau
  }

  /** Values strictly decrease from lag `lo` to lag `hi`. */
  predicate StrictlyDecreasing(b: seq<real>, lo: nat, hi: nat)
    requires lo <= hi < |b|
  {
    forall k :: lo <= k < hi ==> b[k + 1] < b[k]
  }

  /** No value in `[lo, hi)` is below the threshold. */
  predicate NoneBelow(b: seq<real>, threshold: real, lo: nat, hi: nat)
    requires hi <= |b|
  {
    forall k :: lo <= k < hi ==> b[k] >= threshold
  }

  /** `tau` is the result the search promises: the local minimum reached by
      descending from the first in-range value below the threshold. */
  predicate IsDip(b: seq<real>, threshold: real, start: nat, end: nat, tau: nat)
    requires end <= |b|
  {
    && start <= tau < end
    && b[tau] < threshold
    && (tau + 1 == end || b[tau + 1] >= b[tau])
    && exists f :: start <= f <= tau && b[f] < threshold
                   && NoneBelow(b, threshold, start, f) && StrictlyDecreasing(b, f, tau)
  }

  /** The lag the scanning loops stop at: the first value below the threshold
      followed by the descent, or the first lag not below `end` (which is
      `start` itself when `start > end`). */
  function ScanEnd(b: seq<real>, threshold: real, tau: nat, end: nat): (t: nat)
    requires end <= |b|
    ensures tau > end ==> t == tau
    ensures tau <= end ==> tau <= t <= end
    ensures tau <= end && t == end ==> NoneBelow(b, threshold, tau, end)
    ensures t < end ==> IsDip(b, threshold, tau, end, t)
    decreases end - tau
  {
    if tau >= end then tau
    else if b[tau] < threshold then
      var t := Descend(b, tau, end);
      assert NoneBelow(b, threshold, tau, tau);
      t
    else
      var t := ScanEnd(b, threshold, tau + 1, end);
      if t < end then DipExtendsBack(b, threshold, tau, end, t); t else t
  }

  /** A dip found from `tau + 1` is still the dip from `tau` when `b[tau]`
      is not below the threshold. */
  lemma DipExtendsBack(b: seq<real>, threshold: real, tau: nat, end: nat, t: nat)
    requires end <= |b| && tau < end
    requires b[tau] >= threshold
    requires IsDip(b, threshold, tau + 1, end, t)
    ensures IsDip(b, threshold, tau, end, t)
  {
    var f :| tau + 1 <= f <= t && b[f] < threshold
             && NoneBelow(b, threshold, tau + 1, f) && StrictlyDecreasing(b, f, t);
    NoneBelowExtendsBack(b, threshold, tau, f);
  }

  lemma NoneBelowExtendsBack(b: seq<real>, threshold: real, tau: nat, f: nat)
    requires tau < f <= |b|
    requires b[tau] >= threshold && NoneBelow(b, threshold, tau + 1, f)
    ensures NoneBelow(b, threshold, tau, f)
  {
  }

  /** The search result as written: the final check compares the stopping
      lag with `end` for equality, so with `start > end` it reads `b[start]`,
      which is out of bounds (a panic) when `start >= |b|`. */
  function ThresholdAsWritten(b: seq<real>, threshold: real, range: TauRange): (r: Result<int, Error>)
    requires range.end <= |b|
    ensures r.Failure? <==> range.start > range.end && range.start >= |b|
    ensures r.Failure? ==> r.error == LagOutOfBounds
    ensures r.Success? ==> r.value == -1 || r.value == ScanEnd(b, threshold, range.start, range.end)
    ensures r.Success? && r.value != -1 ==> range.start <= r.value < |b| && b[r.value] < threshold
    ensures r.Success? && range.start > range.end ==>
      r.value == (if b[range.start] < threshold then range.start else -1)
  {
    var tau: int := ScanEnd(b, threshold, range.start, range.end);
    if tau == range.end then Success(-1)
    else if tau >= |b| then Failure(LagOutOfBounds)
    else if b[tau] >= threshold then Success(-1)
    else Success(tau)
  }

  /** The search with the final check reading `tau >= end`, so that an empty
      or reversed range yields no lag. */
  function Threshold(b: seq<real>, threshold: real, range: TauRange): (r: int)
    requires range.end <= |b|
    ensures r == -1 <==> NoneBelow(b, threshold, range.start, range.end)
    ensures r != -1 ==> r >= 0 && IsDip(b, threshold, range.start, range.end, r)
  {
    var tau := ScanEnd(b, threshold, range.start, range.end);
    if tau >= range.end || b[tau] >= threshold then -1 else tau
  }

  /** The nested scanning loops of the search. */
  method ThresholdSearch(b: seq<real>, threshold: real, range: TauRange) returns (r: int)
    requires range.end <= |b|
    ensures r == Threshold(b, threshold, range)
  {
    var tau := range.start;
    var max := range.end;
    while tau < max
      invariant range.start <= tau
      invariant range.start <= max ==> tau <= max
      invariant ScanEnd(b, threshold, tau, max) == ScanEnd(b, threshold, range.start, max)
      decreases max - tau
    {
      if b[tau] < threshold {
        var first := tau;
        while tau + 1 < max && b[tau + 1] < b[tau]
          invariant first <= tau < max
          invariant Descend(b, tau, max) == Descend(b, first, max)
          decreases max - tau
        {
          tau := tau + 1;
        }
        break;
      }
      tau := tau + 1;
    }
    if tau >= max || b[tau] >= threshold {
      r := -1;
    } else {
      r := tau;
    }
  }

  /** The two final checks disagree only on reversed ranges. */
  lemma ThresholdAgreesOnOrderedRanges(b: seq<real>, threshold: real, range: TauRange)
    requires range.start <= range.end <= |b|
    ensures ThresholdAsWritten(b, threshold, range) == Success(Threshold(b, threshold, range))
  {
  }

  /** With the reversed range `[2, 1)` (what a band above the sample rate
      produces) the search as written returns lag 2, outside the range. */
  lemma ThresholdAsWrittenEscapesRange()
    ensures var b := [1.0, 1.0, 0.05, 1.0];
      var range := TauRange(2, 1);
      && ThresholdAsWritten(b, 0.1, range) == Success(2)
      && !(range.start <= 2 < range.end)
      && Threshold(b, 0.1, range) == -1
  {
    var b := [1.0, 1.0, 0.05, 1.0];
    assert ScanEnd(b, 0.1, 2, 1) == 2;
  }

  /** A band entirely above the sample rate yields the reversed range `[2, 1)`. */
  lemma BandAboveSampleRateReversesRange()
    ensures CalculateTauRange(1024, 44100, Some(FrequencyRange(50000.0, 60000.0))) == TauRange(2, 1)
  {
    var sr := 44100 as real;
    assert FloorOf(sr / 60000.0) == 0;
    assert CeilOf(sr / 50000.0) == 1;
  }

  /** The band `[20, 40)` Hz at 44.1 kHz over a buffer of 1024 lags gives the
      reversed range `[1102, 1024)`, whose start lies past the buffer: the
      search as written reads out of bounds, whatever the buffer and the
      threshold, while the corrected search returns -1. */
  lemma LowBandReadsPastBuffer(b: seq<real>, threshold: real)
    requires |b| == 1024
    ensures CalculateTauRange(1024, 44100, Some(FrequencyRange(20.0, 40.0))) == TauRange(1102, 1024)
    ensures ThresholdAsWritten(b, threshold, TauRange(1102, 1024)) == Failure(LagOutOfBounds)
    ensures Threshold(b, threshold, TauRange(1102, 1024)) == -1
  {
    var sr := 44100 as real;
    assert FloorOf(sr / 40.0) == 1102;
    assert CeilOf(sr / 20.0) == 2205;
  }

  /** Raising the threshold never loses a detection. */
  lemma ThresholdFoundIsMonotone(b: seq<real>, t1: real, t2: real, range: TauRange)
    requires range.end <= |b|
    requires t1 <= t2
    requires Threshold(b, t1, range) >= 0
    ensures Threshold(b, t2, range) >= 0
  {
    var k :| range.start <= k < range.end && b[k] < t1;
    assert !NoneBelow(b, t2, range.start, range.end);
  }

  // ---------------------------------------------------------------------------
  // Parabolic interpolation

  /** The parabola through the three samples around `t`, in Lagrange form. */
  function Parabola(b: seq<real>, t: nat, x: real): real
    requires 1 <= t && t + 1 < |b|
  {
    var u := x - t as real;
    b[t - 1] * (u * (u - 1.0)) / 2.0 - b[t] * ((u + 1.0) * (u - 1.0)) + b[t + 1] * ((u + 1.0) * u) / 2.0
  }

  function ParabolicInterpolation(b: seq<real>, t: nat): (x: real)
    requires 1 <= |b|
    requires t == 0 ==> 2 <= |b|
    ensures t == 0 ==> x == (if b[0] <= b[1] then 0.0 else 1.0)
    ensures t >= 1 && t >= |b| - 1 ==> x == (t - 1) as real
    ensures 1 <= t < |b| - 1 && b[t + 1] + b[t - 1] == 2.0 * b[t] ==> x == t as real
  {
    if t < 1 then
      (if b[t] <= b[t + 1] then t as real else (t + 1) as real)
    else if t >= |b| - 1 then
      (t - 1) as real
    else
      var den := b[t + 1] + b[t - 1] - 2.0 * b[t];
      var delta := b[t - 1] - b[t + 1];
      if den == 0.0 then t as real else t as real + delta / (2.0 * den)
  }

  /** The frequency of lag `tau`: the sample rate over its interpolated
      period. */
  function LagFrequency(b: seq<real>, sampleRate: nat, tau: nat): (f: real)
    requires 1 <= tau < |b|
    requires ParabolicInterpolation(b, tau) != 0.0
    ensures f * ParabolicInterpolation(b, tau) == sampleRate as real
    ensures f == 0.0 <==> sampleRate == 0
  {
    QuotientTimesDivisor(sampleRate as real, ParabolicInterpolation(b, tau));
    sampleRate as real / ParabolicInterpolation(b, tau)
  }

  /** Away from the boundaries, a curved neighbourhood is refined to the
      vertex of the parabola through the three samples: the interpolating
      parabola passes through them, and the refined lag is its minimum when
      it opens upwards and its maximum when it opens downwards. */
  lemma InterpolationIsParabolaVertex(b: seq<real>, t: nat, y: real)
    requires 1 <= t && t + 1 < |b|
    requires b[t + 1] + b[t - 1] - 2.0 * b[t] != 0.0
    ensures Parabola(b, t, (t - 1) as real) == b[t - 1]
    ensures Parabola(b, t, t as real) == b[t]
    ensures Parabola(b, t, (t + 1) as real) == b[t + 1]
    ensures var x := ParabolicInterpolation(b, t);
      && (b[t + 1] + b[t - 1] - 2.0 * b[t] > 0.0 ==> Parabola(b, t, x) <= Parabola(b, t, y))
      && (b[t + 1] + b[t - 1] - 2.0 * b[t] < 0.0 ==> Parabola(b, t, x) >= Parabola(b, t, y))
  {
    var den := b[t + 1] + b[t - 1] - 2.0 * b[t];
    var delta := b[t - 1] - b[t + 1];
    var x := ParabolicInterpolation(b, t);
    var ux := delta / (2.0 * den);
    var uy := y - t as real;
    assert x - t as real == ux;
    ParabolaVertexForm(b[t - 1], b[t], b[t + 1], ux, uy);
    var sq := (uy - ux) * (uy - ux);
    assert sq >= 0.0;
    if den > 0.0 {
      assert den / 2.0 * sq >= 0.0;
    } else {
      assert -den / 2.0 * sq >= 0.0;
    }
    ParabolaIsParabolaAt(b, t, x);
    ParabolaIsParabolaAt(b, t, y);
  }

  lemma ParabolaIsParabolaAt(b: seq<real>, t: nat, x: real)
    requires 1 <= t && t + 1 < |b|
    ensures Parabola(b, t, x) == ParabolaAt(b[t - 1], b[t], b[t + 1], x - t as real)
  {
  }

  /** The Lagrange parabola through `(-1, p)`, `(0, q)`, `(1, s)` at offset `u`. */
  function ParabolaAt(p: real, q: real, s: real, u: real): real
  {
    p * (u * (u - 1.0)) / 2.0 - q * ((u + 1.0) * (u - 1.0)) + s * ((u + 1.0) * u) / 2.0
  }

  lemma ParabolaVertexForm(p: real, q: real, s: real, ux: real, uy: real)
    requires s + p - 2.0 * q != 0.0
    requires ux == (p - s) / (2.0 * (s + p - 2.0 * q))
    ensures ParabolaAt(p, q, s, uy) - ParabolaAt(p, q, s, ux)
            == (s + p - 2.0 * q) / 2.0 * ((uy - ux) * (uy - ux))
  {
    var den := s + p - 2.0 * q;
    var slope := (s - p) / 2.0;
    assert ParabolaAt(p, q, s, uy) == q + slope * uy + den / 2.0 * (uy * uy);
    assert ParabolaAt(p, q, s, ux) == q + slope * ux + den / 2.0 * (ux * ux);
    assert slope == -den * ux;
  }

  /** When `b[t]` is a local minimum of its neighbours, the refinement moves
      the lag by at most half a sample. */
  lemma InterpolationWithinHalfSample(b: seq<real>, t: nat)
    requires 1 <= t && t + 1 < |b|
    requires b[t] <= b[t - 1] && b[t] <= b[t + 1]
    ensures t as real - 0.5 <= ParabolicInterpolation(b, t) <= t as real + 0.5
  {
    var den := b[t + 1] + b[t - 1] - 2.0 * b[t];
    var delta := b[t - 1] - b[t + 1];
    if den != 0.0 {
      assert den > 0.0;
      assert -den <= delta <= den;
      var q := delta / (2.0 * den);
      assert q * (2.0 * den) == delta;
      assert -0.5 <= q <= 0.5;
    }
  }
}

=== FILE: hmm_chain.dfy ===
/** The fixed Markov chain of the pitch tracker: 108 semitone bins, each
    duplicated into a primary and a shadow track (216 states), a
    triangular-window transition matrix, an identity emission matrix and a
    uniform initial distribution. */
module HmmChain {
  import opened Numeric

  const NBins: nat := 108                // C0 to B8, 12 semitones times 9 octaves
  const NStates: nat := 216             // every bin on a primary and a shadow track
  const HalfTransition: nat := 6         // a transition width of 13 halved and truncated
  const SelfTrans: real := 0.99          // probability of staying on the same track

  /** First bin of the transition window around bin `i`. */
  function WindowLo(i: nat): nat
  {
    if i > HalfTransition then i - HalfTransition else 0
  }

  /** Last bin (inclusive) of the transition window around bin `i`. */
  function WindowHi(i: nat): nat
    requires i < NBins
  {
    if i < NBins - HalfTransition then i + HalfTransition else NBins - 1
  }

  /** The bin a state stands for, on either track. */
  function BinOf(s: nat): (i: nat)
    requires s < NStates
    ensures i < NBins
    ensures s < NBins ==> i == s
    ensures s >= NBins ==> i + NBins == s
  {
    if s < NBins then s else s - NBins
  }

  function Distance(i: nat, j: nat): nat
  {
    if i <= j then j - i else i - j
  }

  /** The window is the bins within six semitones of `i`, clipped to the table. */
  lemma WindowIsClippedNeighbourhood(i: nat, j: nat)
    requires i < NBins && j < NBins
    ensures WindowLo(i) == (if i >= 6 then i - 6 else 0)
    ensures WindowHi(i) == (if i + 6 <= 107 then i + 6 else 107)
    ensures WindowLo(i) <= j <= WindowHi(i) <==> Distance(i, j) <= 6
  {
  }

  /** The unnormalised weight of moving from bin `i` to bin `j` of its
      window, computed with the two-branch formula around the window's
      theoretical (unclipped) start `i - 6`: a triangle peaking at 7. */
  function RawWeight(i: nat, j: nat): (w: int)
    requires i < NBins
    requires WindowLo(i) <= j <= WindowHi(i)
    ensures w == 7 - Distance(i, j)
    ensures 1 <= w <= 7
    ensures w == 7 <==> i == j
  {
    var theoreticalMin := i as int - HalfTransition as int;
    if j <= i then j as int - theoreticalMin + 1
    else (i * 2) as int - theoreticalMin + 1 - j as int
  }

  /** The weights pushed for bin `i`, one per window position. */
  function Weights(i: nat): (ws: seq<real>)
    requires i < NBins
    ensures |ws| == WindowHi(i) - WindowLo(i) + 1
    ensures forall k :: 0 <= k < |ws| ==> ws[k] == RawWeight(i, WindowLo(i) + k) as real
    ensures forall k :: 0 <= k < |ws| ==> ws[k] >= 1.0
  {
    seq(WindowHi(i) - WindowLo(i) + 1, k requires 0 <= k < WindowHi(i) - WindowLo(i) + 1 =>
      RawWeight(i, WindowLo(i) + k) as real)
  }

  function WeightSum(i: nat): (s: real)
    requires i < NBins
    ensures s >= 7.0
  {
    var ws := Weights(i);
    assert RawWeight(i, WindowLo(i) + (i - WindowLo(i))) == 7;
    SumAtLeastTerm(ws, i - WindowLo(i));
    Sum(ws)
  }

  /** The first inner loop: collect the window's weights and their sum. */
  method RowWeights(i: nat) returns (weights: seq<real>, weightSum: real)
    requires i < NBins
    ensures weights == Weights(i)
    ensures weightSum == Sum(weights) && weightSum >= 7.0
  {
    var lo, hi := WindowLo(i), WindowHi(i);
    weights := [];
    weightSum := 0.0;
    for j := lo to hi + 1
      invariant weights == Weights(i)[..j - lo]
      invariant weightSum == Sum(weights)
    {
      var weight := RawWeight(i, j) as real;
      assert (weights + [weight])[..|weights|] == weights;
      weights := weights + [weight];
      weightSum := weightSum + weight;
    }
    assert weights == Weights(i);
    assert weightSum == WeightSum(i);
  }

  /** The normalised weight from bin `i` to bin `j`; zero outside the window. */
  function NormWeight(i: nat, j: nat): (w: real)
    requires i < NBins && j < NBins
    ensures w > 0.0 <==> Distance(i, j) <= HalfTransition
    ensures w >= 0.0
  {
    if WindowLo(i) <= j <= WindowHi(i) then RawWeight(i, j) as real / WeightSum(i) else 0.0
  }

  /** Transition probability from state `s` to state `t`. States below
      `NBins` form the primary track, the others the shadow track. */
  function Transition(s: nat, t: nat): real
    requires s < NStates && t < NStates
  {
    var w := NormWeight(BinOf(s), BinOf(t));
    if (s < NBins) == (t < NBins) then w * SelfTrans else w * (1.0 - SelfTrans)
  }

  /** `row` holds the transitions of state `s` into the bins `[lo, j)` of
      both tracks and zero elsewhere. */
  predicate RowFilled(row: seq<real>, s: nat, lo: nat, j: nat)
    requires s < NStates
  {
    |row| == NStates && forall t :: 0 <= t < NStates ==>
      row[t] == (if lo <= BinOf(t) < j then Transition(s, t) else 0.0)
  }

  /** Writing bin `j` of both tracks into the primary row of bin `i`. */
  lemma PrimaryStep(row: seq<real>, i: nat, lo: nat, j: nat, weight: real)
    requires i < NBins && lo <= j < NBins
    requires RowFilled(row, i, lo, j) && weight == NormWeight(i, j)
    ensures RowFilled(row[j := weight * SelfTrans][j + NBins := weight * (1.0 - SelfTrans)], i, lo, j + 1)
  {
  }

  /** Writing bin `j` of both tracks into the shadow row of bin `i`. */
  lemma ShadowStep(row: seq<real>, i: nat, lo: nat, j: nat, weight: real)
    requires i < NBins && lo <= j < NBins
    requires RowFilled(row, i + NBins, lo, j) && weight == NormWeight(i, j)
    ensures RowFilled(row[j + NBins := weight * SelfTrans][j := weight * (1.0 - SelfTrans)], i + NBins, lo, j + 1)
  {
  }

  /** The rows written for bin `i`: its primary row and its shadow row. */
  method BinRows(i: nat, zeros: seq<real>) returns (primary: seq<real>, shadow: seq<real>)
    requires i < NBins
    requires |zeros| == NStates && forall t :: 0 <= t < NStates ==> zeros[t] == 0.0
    ensures |primary| == NStates && |shadow| == NStates
    ensures forall t :: 0 <= t < NStates ==> primary[t] == Transition(i, t)
    ensures forall t :: 0 <= t < NStates ==> shadow[t] == Transition(i + NBins, t)
  {
    var lo, hi := WindowLo(i), WindowHi(i);
    var weights, weightSum := RowWeights(i);
    primary, shadow := zeros, zeros;
    for j := lo to hi + 1
      invariant RowFilled(primary, i, lo, j)
      invariant RowFilled(shadow, i + NBins, lo, j)
    {
      var weight := weights[j - lo] / weightSum;
      assert weight == NormWeight(i, j);
      PrimaryStep(primary, i, lo, j, weight);
      ShadowStep(shadow, i, lo, j, weight);
      primary := primary[j := weight * SelfTrans][j + NBins := weight * (1.0 - SelfTrans)];
      shadow := shadow[j + NBins := weight * SelfTrans][j := weight * (1.0 - SelfTrans)];
    }
    WindowFillsRow(primary, i);
    WindowFillsRow(shadow, i + NBins);
  }

  /** A row filled over the whole window of its bin is the transition row:
      outside the window the transitions are zero. */
  lemma WindowFillsRow(row: seq<real>, s: nat)
    requires s < NStates
    requires RowFilled(row, s, WindowLo(BinOf(s)), WindowHi(BinOf(s)) + 1)
    ensures |row| == NStates && forall t :: 0 <= t < NStates ==> row[t] == Transition(s, t)
  {
  }

  /** The transition matrix construction loop over bins. */
  method BuildTransition() returns (m: seq<seq<real>>)
    ensures |m| == NStates
    ensures forall s :: 0 <= s < NStates ==> |m[s]| == NStates && Sum(m[s]) == 1.0
    ensures forall s, t :: 0 <= s < NStates && 0 <= t < NStates ==> m[s][t] == Transition(s, t)
  {
    var zeros := seq(NStates, _ => 0.0);
    m := seq(NStates, _ => zeros);
    for i := 0 to NBins
      invariant |m| == NStates
      invariant forall s :: 0 <= s < NStates ==> |m[s]| == NStates
      invariant forall s, t :: 0 <= s < NStates && 0 <= t < NStates ==>
        m[s][t] == (if s < i || NBins <= s < NBins + i then Transition(s, t) else 0.0)
    {
      var primary, shadow := BinRows(i, zeros);
      m := m[i := primary][i + NBins := shadow];
    }
    forall s | 0 <= s < NStates
      ensures Sum(m[s]) == 1.0
    {
      assert m[s] == TransitionRow(s);
      TransitionRowIsStochastic(s);
    }
  }

  function TransitionRow(s: nat): (row: seq<real>)
    requires s < NStates
    ensures |row| == NStates
  {
    seq(NStates, t requires 0 <= t < NStates => Transition(s, t))
  }

  /** The weights of bin `i` padded with zeros to the whole bin table. */
  function PaddedWeights(i: nat): (ws: seq<real>)
    requires i < NBins
    ensures |ws| == NBins
  {
    seq(NBins, j requires 0 <= j < NBins =>
      if WindowLo(i) <= j <= WindowHi(i) then RawWeight(i, j) as real else 0.0)
  }

  lemma PaddedWeightsSum(i: nat)
    requires i < NBins
    ensures Sum(PaddedWeights(i)) == WeightSum(i)
  {
    var lo, hi := WindowLo(i), WindowHi(i);
    var left := seq(lo, _ => 0.0);
    var right := seq(NBins - 1 - hi, _ => 0.0);
    assert PaddedWeights(i) == left + Weights(i) + right;
    SumAppend(left + Weights(i), right);
    SumAppend(left, Weights(i));
    SumConstant(left, 0.0);
    SumConstant(right, 0.0);
  }

  /** The normalised weights of one bin, over the whole bin table. */
  function NormRow(i: nat): (ws: seq<real>)
    requires i < NBins
    ensures |ws| == NBins
  {
    seq(NBins, j requires 0 <= j < NBins => NormWeight(i, j))
  }

  /** The normalised weights of one bin sum to one. */
  lemma NormWeightsSumToOne(i: nat)
    requires i < NBins
    ensures Sum(NormRow(i)) == 1.0
  {
    PaddedWeightsSum(i);
    NormalisedSumIsOne(PaddedWeights(i), NormRow(i), WeightSum(i));
  }

  /** One track's half of the transition row of state `s` is the bin's
      normalised weights scaled by the probability of landing on that track. */
  lemma TrackSliceIsScaled(s: nat, lo: nat, c: real, slice: seq<real>, weights: seq<real>)
    requires s < NStates && (lo == 0 || lo == NBins)
    requires c == (if (s < NBins) == (lo == 0) then SelfTrans else 1.0 - SelfTrans)
    requires slice == TransitionRow(s)[lo..lo + NBins] && weights == NormRow(BinOf(s))
    ensures ScaledBy(slice, weights, c)
  {
    forall k | 0 <= k < NBins
      ensures slice[k] == c * weights[k]
    {
      assert slice[k] == Transition(s, lo + k);
      assert BinOf(lo + k) == k;
    }
  }

  lemma TrackSliceSum(s: nat, lo: nat, c: real)
    requires s < NStates && (lo == 0 || lo == NBins)
    requires c == (if (s < NBins) == (lo == 0) then SelfTrans else 1.0 - SelfTrans)
    ensures Sum(TransitionRow(s)[lo..lo + NBins]) == c
  {
    TrackSliceIsScaled(s, lo, c, TransitionRow(s)[lo..lo + NBins], NormRow(BinOf(s)));
    NormWeightsSumToOne(BinOf(s));
    ScaledUnitSum(NormRow(BinOf(s)), c, TransitionRow(s)[lo..lo + NBins]);
  }

  /** `t` is `w` scaled term by term by `c`. */
  predicate ScaledBy(t: seq<real>, w: seq<real>, c: real)
  {
    |t| == |w| && forall k :: 0 <= k < |w| ==> t[k] == c * w[k]
  }

  lemma ScaledUnitSum(w: seq<real>, c: real, t: seq<real>)
    requires Sum(w) == 1.0 && ScaledBy(t, w, c)
    ensures Sum(t) == c
  {
    SumScale(w, c, t);
  }

  /** Every row of the transition matrix is a probability distribution. */
  lemma TransitionRowIsStochastic(s: nat)
    requires s < NStates
    ensures Sum(TransitionRow(s)) == 1.0
  {
    var row := TransitionRow(s);
    assert row == row[0..NBins] + row[NBins..NBins + NBins];
    SumAppend(row[0..NBins], row[NBins..NBins + NBins]);
    var same := if s < NBins then SelfTrans else 1.0 - SelfTrans;
    TrackSliceSum(s, 0, same);
    TrackSliceSum(s, NBins, 1.0 - same);
  }

  /** The transition matrix is the same on both tracks and splits the
      probability of each move 99 to 1 between staying on the track and
      switching. */
  lemma TransitionTrackStructure(i: nat, j: nat)
    requires i < NBins && j < NBins
    ensures Transition(i, j) == Transition(i + NBins, j + NBins)
    ensures Transition(i, j + NBins) == Transition(i + NBins, j)
    ensures Transition(i, j) == 99.0 * Transition(i, j + NBins)
    ensures Transition(i, j) + Transition(i, j + NBins) == NormWeight(i, j)
  {
  }

  /** The Markov chain handed to the decoder. */
  datatype Chain = Chain(initial: seq<real>, transition: seq<seq<real>>, emission: seq<seq<real>>)

  method BuildHmm() returns (chain: Chain)
    ensures |chain.initial| == NStates
    ensures forall s :: 0 <= s < NStates ==> chain.initial[s] == 1.0 / NStates as real
    ensures Sum(chain.initial) == 1.0
    ensures |chain.transition| == NStates
    ensures forall s :: 0 <= s < NStates ==>
      |chain.transition[s]| == NStates && Sum(chain.transition[s]) == 1.0
    ensures forall s, t :: 0 <= s < NStates && 0 <= t < NStates ==> chain.transition[s][t] == Transition(s, t)
    ensures |chain.emission| == NStates
    ensures forall s :: 0 <= s < NStates ==> |chain.emission[s]| == NStates
    ensures forall s, o :: 0 <= s < NStates && 0 <= o < NStates ==>
      chain.emission[s][o] == (if s == o then 1.0 else 0.0)
  {
    var initial := seq(NStates, _ => 1.0 / NStates as real);
    SumConstant(initial, 1.0 / NStates as real);
    var transition := BuildTransition();
    var emission := seq(NStates, s => seq(NStates, o => if s == o then 1.0 else 0.0));
    chain := Chain(initial, transition, emission);
  }
}

=== FILE: numeric.dfy ===
/** Small numeric vocabulary shared by the pitch-detector model: optional and
    fallible values, sums of real sequences, and the integer conversions the
    detector applies to floating-point values (floor, ceiling, rounding half
    away from zero and the saturating cast to an unsigned index). */
module Numeric {

  datatype Option<+T> = None | Some(value: T)

  datatype Result<+T, +E> = Success(value: T) | Failure(error: E)

  function Abs(x: real): real
  {
    if x < 0.0 then -x else x
  }

  /** Sum of a sequence, accumulated from the front like a running sum. */
  function Sum(s: seq<real>): real
  {
    if |s| == 0 then 0.0 else Sum(s[..|s| - 1]) + s[|s| - 1]
  }

  function Mean(s: seq<real>): real
    requires |s| > 0
  {
    Sum(s) / |s| as real
  }

  lemma {:induction false} SumAppend(a: seq<real>, b: seq<real>)
    ensures Sum(a + b) == Sum(a) + Sum(b)
    decreases |b|
  {
    if |b| == 0 {
      assert a + b == a;
    } else {
      assert (a + b)[..|a + b| - 1] == a + b[..|b| - 1];
      SumAppend(a, b[..|b| - 1]);
    }
  }

  lemma {:induction false} SumScale(s: seq<real>, c: real, t: seq<real>)
    requires |t| == |s|
    requires forall k :: 0 <= k < |s| ==> t[k] == c * s[k]
    ensures Sum(t) == c * Sum(s)
    decreases |s|
  {
    if |s| > 0 {
      SumScale(s[..|s| - 1], c, t[..|t| - 1]);
    }
  }

  lemma {:induction false} SumConstant(s: seq<real>, c: real)
    requires forall k :: 0 <= k < |s| ==> s[k] == c
    ensures Sum(s) == |s| as real * c
    decreases |s|
  {
    if |s| > 0 {
      SumConstant(s[..|s| - 1], c);
    }
  }

  lemma {:induction false} SumNonNegative(s: seq<real>)
    requires forall k :: 0 <= k < |s| ==> s[k] >= 0.0
    ensures Sum(s) >= 0.0
    decreases |s|
  {
    if |s| > 0 {
      SumNonNegative(s[..|s| - 1]);
    }
  }

  /** A sum of non-negative terms is at least each of its terms. */
  lemma {:induction false} SumAtLeastTerm(s: seq<real>, i: nat)
    requires i < |s|
    requires forall k :: 0 <= k < |s| ==> s[k] >= 0.0
    ensures Sum(s) >= s[i]
    decreases |s|
  {
    var init := s[..|s| - 1];
    if i == |s| - 1 {
      SumNonNegative(init);
    } else {
      SumAtLeastTerm(init, i);
    }
  }

  /** Overwriting one term changes the sum by the difference of the terms. */
  lemma {:induction false} SumUpdate(s: seq<real>, i: nat, v: real)
    requires i < |s|
    ensures Sum(s[i := v]) == Sum(s) - s[i] + v
    decreases |s|
  {
    var t := s[i := v];
    if i == |s| - 1 {
      assert t[..|t| - 1] == s[..|s| - 1];
    } else {
      assert t[..|t| - 1] == s[..|s| - 1][i := v];
      SumUpdate(s[..|s| - 1], i, v);
    }
  }

  /** Dividing every term by the same divisor divides the sum by it. */
  lemma {:induction false} SumDivide(p: seq<real>, n: seq<real>, divisor: real)
    requires divisor != 0.0
    requires |n| == |p|
    requires forall k :: 0 <= k < |p| ==> n[k] == p[k] / divisor
    ensures Sum(n) == Sum(p) / divisor
    decreases |p|
  {
    if |p| > 0 {
      var m := |p| - 1;
      SumDivide(p[..m], n[..m], divisor);
      AddQuotients(Sum(p[..m]), p[m], divisor);
    }
  }

  lemma AddQuotients(a: real, b: real, divisor: real)
    requires divisor != 0.0
    ensures a / divisor + b / divisor == (a + b) / divisor
  {
  }

  /** Dividing every term by the total makes the terms sum to one. */
  lemma NormalisedSumIsOne(p: seq<real>, n: seq<real>, total: real)
    requires Sum(p) == total && total != 0.0
    requires |n| == |p|
    requires forall k :: 0 <= k < |p| ==> n[k] == p[k] / total
    ensures Sum(n) == 1.0
  {
    SumDivide(p, n, total);
    SelfQuotient(Sum(p), total);
  }

  lemma SelfQuotient(a: real, divisor: real)
    requires a == divisor && divisor != 0.0
    ensures a / divisor == 1.0
  {
  }

  lemma QuotientTimesDivisor(a: real, divisor: real)
    requires divisor != 0.0
    ensures (a / divisor) * divisor == a
  {
  }

  lemma NonNegativeProduct(a: real, b: real)
    requires a >= 0.0 && b >= 0.0
    ensures a * b >= 0.0
  {
  }

  /** Largest integer not above x, characterised without reference to Floor. */
  function FloorOf(x: real): (n: int)
    ensures n as real <= x < n as real + 1.0
  {
    x.Floor
  }

  /** Least integer not below x. */
  function CeilOf(x: real): (n: int)
    ensures n as real - 1.0 < x <= n as real
  {
    -((-x).Floor)
  }

  /** Rounding half away from zero, as the floating-point `round` does. */
  function RoundHalfAway(x: real): (n: int)
    ensures x >= 0.0 ==> n >= 0 && n as real - 0.5 <= x < n as real + 0.5
    ensures x < 0.0 ==> n <= 0 && n as real - 0.5 < x <= n as real + 0.5
  {
    if x >= 0.0 then (x + 0.5).Floor else -((-x + 0.5).Floor)
  }

  /** The conversion of a float to an unsigned index: negative values become 0.
      (Saturation at the top of the unsigned range is not modelled.) */
  function SaturateToNat(n: int): (r: nat)
    ensures n >= 0 ==> r == n
    ensures n < 0 ==> r == 0
  {
    if n < 0 then 0 else n
  }
}

=== FILE: pitch_hmm.dfy ===
/** The pitch tracker's inference: candidates are bound to the nearest
    semitone bin, the voiced mass is rescaled by the tracker's trust in the
    candidate generator, the slot masses are expanded into a sorted
    observation sequence, and the decoded state path is reduced to the most
    visited primary bin. The decoder itself is a parameter. */
module PitchHmm {
  import opened Numeric
  import opened HmmChain

  /** Probability slots: one per primary bin, one per shadow bin, and one
      trailing slot that nothing writes. */
  const NSlots: nat := 217

  datatype PitchCandidate = PitchCandidate(frequency: real, probability: real)

  /** The tracker's per-call state: the reference frequencies of the bins and
      the weight given to the candidates' voiced probability. */
  datatype Tracker = Tracker(pitchBins: seq<real>, yinTrust: real)

  // ---------------------------------------------------------------------------
  // Nearest-bin search

  function Dist(f: real, bins: seq<real>, m: nat): real
    requires m < |bins|
  {
    Abs(f - bins[m])
  }

  /** Distances do not increase from bin `lo` up to bin `hi`. */
  predicate NonIncreasingBetween(f: real, bins: seq<real>, lo: nat, hi: nat)
    requires hi <= |bins|
  {
    forall m :: lo <= m && m + 1 < hi ==> Dist(f, bins, m + 1) <= Dist(f, bins, m)
  }

  /** The previous distance stands below the current one. `None` plays the
      role of the largest float the scan starts from. */
  predicate Below(prevDelta: Option<real>, delta: real)
  {
    prevDelta.Some? && prevDelta.value < delta
  }

  function ScanBins(f: real, bins: seq<real>, i: nat, prevDelta: Option<real>): (r: Option<nat>)
    requires i <= |bins|
    requires prevDelta == (if i == 0 then None else Some(Dist(f, bins, i - 1)))
    ensures var lo := if i == 0 then 0 else i - 1;
      && (r.Some? ==> lo <= r.value && r.value + 1 < |bins|
                      && Dist(f, bins, r.value) < Dist(f, bins, r.value + 1)
                      && NonIncreasingBetween(f, bins, lo, r.value + 1))
      && (r.None? ==> NonIncreasingBetween(f, bins, lo, |bins|))
    decreases |bins| - i
  {
    if i == |bins| then None
    else
      var delta := Dist(f, bins, i);
      if Below(prevDelta, delta) then Some(i - 1)
      else ScanBins(f, bins, i + 1, Some(delta))
  }

  /** The bin a candidate frequency is bound to: the bin before the first one
      whose distance to the frequency strictly exceeds its predecessor's. */
  function FindBin(f: real, bins: seq<real>): (r: Option<nat>)
    ensures r.Some? ==> (r.value + 1 < |bins|
      && Dist(f, bins, r.value) < Dist(f, bins, r.value + 1)
      && NonIncreasingBetween(f, bins, 0, r.value + 1))
    ensures r.None? ==> NonIncreasingBetween(f, bins, 0, |bins|)
  {
    ScanBins(f, bins, 0, None)
  }

  predicate StrictlyIncreasing(bins: seq<real>)
  {
    forall a, b :: 0 <= a < b < |bins| ==> bins[a] < bins[b]
  }

  lemma {:induction false} NonIncreasingChain(f: real, bins: seq<real>, m: nat, k: nat)
    requires m <= k < |bins|
    requires NonIncreasingBetween(f, bins, 0, k + 1)
    ensures Dist(f, bins, k) <= Dist(f, bins, m)
    decreases k - m
  {
    if m < k {
      NonIncreasingChain(f, bins, m + 1, k);
    }
  }

  /** With increasing reference frequencies the selected bin is a nearest
      bin to the candidate, and a candidate that selects no bin is nearest
      to the last bin. */
  lemma FindBinIsNearest(f: real, bins: seq<real>, m: nat)
    requires StrictlyIncreasing(bins)
    requires m < |bins|
    ensures FindBin(f, bins).Some? ==> Dist(f, bins, FindBin(f, bins).value) <= Dist(f, bins, m)
    ensures FindBin(f, bins).None? ==> Dist(f, bins, |bins| - 1) <= Dist(f, bins, m)
  {
    match FindBin(f, bins)
    case None =>
      NonIncreasingChain(f, bins, m, |bins| - 1);
    case Some(k) =>
      if m <= k {
        NonIncreasingChain(f, bins, m, k);
      } else if m > k + 1 {
        assert bins[k] < bins[k + 1] < bins[m];
      }
  }

  // ---------------------------------------------------------------------------
  // Binning

  /** Slot masses, representative frequencies and the total matched mass. */
  datatype Binned = Binned(probs: seq<real>, realPitches: seq<real>, probPitched: real)

  predicate WellSized(b: Binned)
  {
    |b.probs| == NSlots && |b.realPitches| == NBins
  }

  /** Bind one candidate: its bin's probability and frequency are
      overwritten, while the matched mass accumulates. */
  function AssignCandidate(acc: Binned, c: PitchCandidate, bins: seq<real>): (r: Binned)
    requires WellSized(acc) && |bins| == NBins
    ensures WellSized(r)
    ensures FindBin(c.frequency, bins).None? ==> r == acc
    ensures FindBin(c.frequency, bins).Some? ==>
      var k := FindBin(c.frequency, bins).value;
      && r.probs[k] == c.probability && r.realPitches[k] == c.frequency
      && r.probPitched == acc.probPitched + c.probability
      && (forall j :: 0 <= j < NSlots && j != k ==> r.probs[j] == acc.probs[j])
      && (forall j :: 0 <= j < NBins && j != k ==> r.realPitches[j] == acc.realPitches[j])
  {
    match FindBin(c.frequency, bins)
    case None => acc
    case Some(k) =>
      Binned(acc.probs[k := c.probability], acc.realPitches[k := c.frequency],
             acc.probPitched + c.probability)
  }

  /** The candidate's probability if it is bound to some bin, else 0. */
  function MatchedMass(candidates: seq<PitchCandidate>, bins: seq<real>): real
  {
    if |candidates| == 0 then 0.0
    else
      var c := candidates[|candidates| - 1];
      MatchedMass(candidates[..|candidates| - 1], bins)
        + (if FindBin(c.frequency, bins).Some? then c.probability else 0.0)
  }

  /** No candidate after position `i` is bound to bin `k`. */
  predicate NoneLaterInBin(candidates: seq<PitchCandidate>, bins: seq<real>, k: nat, i: nat)
  {
    forall j :: i < j < |candidates| ==> FindBin(candidates[j].frequency, bins) != Some(k)
  }

  /** The last candidate in the list bound to bin `k`, if any. */
  function LastInBin(candidates: seq<PitchCandidate>, bins: seq<real>, k: nat): (r: Option<PitchCandidate>)
    ensures r.Some? ==> r.value in candidates && FindBin(r.value.frequency, bins) == Some(k)
    ensures r.None? ==> forall c :: c in candidates ==> FindBin(c.frequency, bins) != Some(k)
    ensures r.Some? ==>
      exists i :: 0 <= i < |candidates| && candidates[i] == r.value && NoneLaterInBin(candidates, bins, k, i)
  {
    if |candidates| == 0 then None
    else
      var last := |candidates| - 1;
      var c := candidates[last];
      if FindBin(c.frequency, bins) == Some(k) then
        assert candidates[last] == c;
        Some(c)
      else
        var init := candidates[..last];
        var r := LastInBin(init, bins, k);
        assert forall x :: x in candidates ==> x in init || x == c;
        assert r.Some? ==>
          exists i :: 0 <= i < |candidates| && candidates[i] == r.value && NoneLaterInBin(candidates, bins, k, i) by {
          if r.Some? {
            var i :| 0 <= i < |init| && init[i] == r.value && NoneLaterInBin(init, bins, k, i);
            assert candidates[i] == r.value;
            NoneLaterExtends(candidates, bins, k, i);
          }
        }
        r
  }

  /** A candidate with no later one bound to bin `k` before the list's last
      element keeps that property when the last element is not bound to `k`. */
  lemma NoneLaterExtends(candidates: seq<PitchCandidate>, bins: seq<real>, k: nat, i: nat)
    requires i < |candidates| - 1
    requires NoneLaterInBin(candidates[..|candidates| - 1], bins, k, i)
    requires FindBin(candidates[|candidates| - 1].frequency, bins) != Some(k)
    ensures NoneLaterInBin(candidates, bins, k, i)
  {
    var init := candidates[..|candidates| - 1];
    forall j | i < j < |candidates| ensures FindBin(candidates[j].frequency, bins) != Some(k) {
      if j < |candidates| - 1 { assert candidates[j] == init[j]; }
    }
  }

  /** The probability and frequency a bin holds once the binning is done:
      those of the last candidate bound to it, or 0 when there is none. */
  function BoundProbability(last: Option<PitchCandidate>): real
  {
    match last
    case None => 0.0
    case Some(c) => c.probability
  }

  function BoundFrequency(last: Option<PitchCandidate>): real
  {
    match last
    case None => 0.0
    case Some(c) => c.frequency
  }

  function EmptyBinned(): (b: Binned)
    ensures WellSized(b)
  {
    Binned(seq(NSlots, _ => 0.0), seq(NBins, _ => 0.0), 0.0)
  }

  /** The binning loop over the candidates, in list order. */
  function BinAll(candidates: seq<PitchCandidate>, bins: seq<real>): (b: Binned)
    requires |bins| == NBins
    ensures WellSized(b)
    ensures b.probPitched == MatchedMass(candidates, bins)
    ensures forall k :: 0 <= k < NBins ==>
      && b.probs[k] == BoundProbability(LastInBin(candidates, bins, k))
      && b.realPitches[k] == BoundFrequency(LastInBin(candidates, bins, k))
    ensures forall s :: NBins <= s < NSlots ==> b.probs[s] == 0.0
  {
    if |candidates| == 0 then EmptyBinned()
    else AssignCandidate(BinAll(candidates[..|candidates| - 1], bins), candidates[|candidates| - 1], bins)
  }

  /** With non-negative probabilities, overwriting can only lose mass: the
      primary slots together hold at most the matched mass. */
  lemma {:induction false} PrimaryMassAtMostMatched(candidates: seq<PitchCandidate>, bins: seq<real>)
    requires |bins| == NBins
    requires forall c :: c in candidates ==> c.probability >= 0.0
    ensures Sum(BinAll(candidates, bins).probs[..NBins]) <= BinAll(candidates, bins).probPitched
    ensures forall k :: 0 <= k < NBins ==> BinAll(candidates, bins).probs[k] >= 0.0
    decreases |candidates|
  {
    var b := BinAll(candidates, bins);
    if |candidates| == 0 {
      SumConstant(b.probs[..NBins], 0.0);
    } else {
      var init := candidates[..|candidates| - 1];
      var c := candidates[|candidates| - 1];
      assert forall x :: x in init ==> x in candidates;
      PrimaryMassAtMostMatched(init, bins);
      var prev := BinAll(init, bins);
      match FindBin(c.frequency, bins)
      case None =>
      case Some(k) =>
        assert b.probs[..NBins] == prev.probs[..NBins][k := c.probability];
        SumUpdate(prev.probs[..NBins], k, c.probability);
    }
  }

  /** Two candidates bound to the same bin: the later one's probability
      replaces the earlier one's, while both count towards the matched mass. */
  lemma SameBinOverwrites(c1: PitchCandidate, c2: PitchCandidate, bins: seq<real>, k: nat)
    requires |bins| == NBins && k < NBins
    requires FindBin(c1.frequency, bins) == Some(k) && FindBin(c2.frequency, bins) == Some(k)
    ensures BinAll([c1, c2], bins).probs[k] == c2.probability
    ensures BinAll([c1, c2], bins).realPitches[k] == c2.frequency
    ensures BinAll([c1, c2], bins).probPitched == c1.probability + c2.probability
  {
    assert [c1, c2][..1] == [c1];
    assert [c1][..0] == [];
  }

  // ---------------------------------------------------------------------------
  // Voiced and unvoiced mass

  /** The rescaling loop: primary slots are scaled by the trust (when any
      mass was matched), shadow slots share the unvoiced mass evenly, and the
      trailing slot is left alone. The loop multiplies each primary slot by
      the ratio of the trusted mass to the matched mass; over the reals that
      ratio is exactly the trust, which is what is written here. */
  function Rescale(b: Binned, yinTrust: real): (probs: seq<real>)
    requires WellSized(b)
    ensures |probs| == NSlots
    ensures forall k :: 0 <= k < NBins ==>
      probs[k] == (if b.probPitched > 0.0 then b.probs[k] * yinTrust else b.probs[k])
    ensures forall k :: NBins <= k < 2 * NBins ==>
      probs[k] == (1.0 - yinTrust * b.probPitched) / NBins as real
    ensures probs[2 * NBins] == b.probs[2 * NBins]
  {
    var reallyPitched := yinTrust * b.probPitched;
    seq(NSlots, i requires 0 <= i < NSlots =>
      if i < NBins then (if b.probPitched > 0.0 then b.probs[i] * yinTrust else b.probs[i])
      else if i < 2 * NBins then (1.0 - reallyPitched) / NBins as real
      else b.probs[i])
  }

  // ---------------------------------------------------------------------------
  // Observation sequence

  /** How many times a slot's index is repeated: 100 times its probability,
      rounded half away from zero, negative counts becoming 0. */
  function RoundCount(p: real): (n: nat)
    ensures 100.0 * p < 0.5 ==> n == 0
    ensures 100.0 * p >= 0.0 ==> n as real - 0.5 <= 100.0 * p < n as real + 0.5
  {
    SaturateToNat(RoundHalfAway(100.0 * p))
  }

  function Repeat(x: nat, n: nat): (r: seq<nat>)
    ensures |r| == n
    ensures forall j :: 0 <= j < n ==> r[j] == x
    ensures multiset(r)[x] == n
    ensures forall y :: y != x ==> multiset(r)[y] == 0
  {
    if n == 0 then [] else Repeat(x, n - 1) + [x]
  }

  /** Each slot index repeated by its count, slots in increasing order. */
  function Observations(probs: seq<real>): (obs: seq<nat>)
    ensures forall j :: 0 <= j < |obs| ==> obs[j] < |probs| && RoundCount(probs[obs[j]]) > 0
    ensures forall a, b :: 0 <= a <= b < |obs| ==> obs[a] <= obs[b]
    ensures forall i :: 0 <= i < |probs| ==> multiset(obs)[i] == RoundCount(probs[i])
    ensures forall i :: i >= |probs| ==> multiset(obs)[i] == 0
    decreases |probs|
  {
    if |probs| == 0 then []
    else
      var init := probs[..|probs| - 1];
      var last := |probs| - 1;
      var prefix := Observations(init);
      var run := Repeat(last, RoundCount(probs[last]));
      AppendRun(prefix, run, last);
      RunEntries(probs, prefix, run);
      RunCounts(probs, prefix, run);
      prefix + run
  }

  lemma RunEntries(probs: seq<real>, prefix: seq<nat>, run: seq<nat>)
    requires |probs| > 0
    requires var last := |probs| - 1;
      && (forall j :: 0 <= j < |prefix| ==> prefix[j] < last && RoundCount(probs[..last][prefix[j]]) > 0)
      && (forall j :: 0 <= j < |run| ==> run[j] == last)
      && |run| == RoundCount(probs[last])
    ensures forall j :: 0 <= j < |prefix + run| ==>
      (prefix + run)[j] < |probs| && RoundCount(probs[(prefix + run)[j]]) > 0
  {
    var last := |probs| - 1;
    forall j | 0 <= j < |prefix + run|
      ensures (prefix + run)[j] < |probs| && RoundCount(probs[(prefix + run)[j]]) > 0
    {
      if j < |prefix| {
        assert (prefix + run)[j] == prefix[j];
        assert probs[..last][prefix[j]] == probs[prefix[j]];
      } else {
        assert (prefix + run)[j] == run[j - |prefix|] == last;
      }
    }
  }

  lemma RunCounts(probs: seq<real>, prefix: seq<nat>, run: seq<nat>)
    requires |probs| > 0
    requires var last := |probs| - 1;
      && (forall i :: 0 <= i < last ==> multiset(prefix)[i] == RoundCount(probs[..last][i]))
      && (forall i :: i >= last ==> multiset(prefix)[i] == 0)
      && multiset(run)[last] == RoundCount(probs[last])
      && (forall y :: y != last ==> multiset(run)[y] == 0)
    requires multiset(prefix + run) == multiset(prefix) + multiset(run)
    ensures forall i :: 0 <= i < |probs| ==> multiset(prefix + run)[i] == RoundCount(probs[i])
    ensures forall i :: i >= |probs| ==> multiset(prefix + run)[i] == 0
  {
    var last := |probs| - 1;
    forall i | 0 <= i < |probs|
      ensures multiset(prefix + run)[i] == RoundCount(probs[i])
    {
      if i < last {
        assert probs[..last][i] == probs[i];
        assert multiset(run)[i] == 0;
      } else {
        assert multiset(prefix)[i] == 0;
      }
    }
  }

  lemma AppendRun(prefix: seq<nat>, run: seq<nat>, last: nat)
    requires forall j :: 0 <= j < |prefix| ==> prefix[j] < last
    requires forall a, b :: 0 <= a <= b < |prefix| ==> prefix[a] <= prefix[b]
    requires forall j :: 0 <= j < |run| ==> run[j] == last
    ensures forall a, b :: 0 <= a <= b < |prefix + run| ==> (prefix + run)[a] <= (prefix + run)[b]
    ensures multiset(prefix + run) == multiset(prefix) + multiset(run)
  {
  }

  /** The trailing slot never receives mass, so every observation names one
      of the 216 states. */
  lemma ObservationsAreStates(probs: seq<real>)
    requires |probs| == NSlots && probs[NStates] == 0.0
    ensures forall j :: 0 <= j < |Observations(probs)| ==> Observations(probs)[j] < NStates
  {
    assert RoundCount(probs[NStates]) == 0;
  }

  // ---------------------------------------------------------------------------
  // Majority vote over the decoded path

  function Count(path: seq<nat>, k: nat): nat
  {
    multiset(path)[k]
  }

  /** `k` is a most visited primary bin, and 0 when no primary bin is visited. */
  predicate IsMostFrequent(path: seq<nat>, k: nat)
  {
    && k < NBins
    && (forall m :: 0 <= m < NBins ==> Count(path, m) <= Count(path, k))
    && (Count(path, k) == 0 ==> k == 0)
  }

  /** The tally over bins `0..n`, keeping the first bin whose count strictly
      exceeds the best seen so far. */
  function MostFrequentUpTo(path: seq<nat>, n: nat): (best: nat)
    requires n <= NBins
    ensures best < NBins && (best < n || best == 0)
    ensures forall m :: 0 <= m < n ==> Count(path, m) <= Count(path, best)
    ensures Count(path, best) == 0 ==> best == 0
  {
    if n == 0 then 0
    else
      var prev := MostFrequentUpTo(path, n - 1);
      if Count(path, n - 1) > Count(path, prev) then n - 1 else prev
  }

  function MostFrequent(path: seq<nat>): (k: nat)
    ensures IsMostFrequent(path, k)
  {
    MostFrequentUpTo(path, NBins)
  }

  /** The observation sequence built from a candidate list. */
  function ObservationsFor(tracker: Tracker, candidates: seq<PitchCandidate>): seq<nat>
    requires |tracker.pitchBins| == NBins
  {
    Observations(Rescale(BinAll(candidates, tracker.pitchBins), tracker.yinTrust))
  }

  /** `f` is the frequency of a most visited primary bin of `path`. */
  predicate SettlesOn(path: seq<nat>, pitches: seq<real>, f: real)
    requires |pitches| == NBins
  {
    exists k :: 0 <= k < NBins && IsMostFrequent(path, k) && f == pitches[k]
  }

  /** The frequency the tracker settles on, or -1 when there is nothing to
      decode. `decode` is the Viterbi decoding over the fixed chain. */
  function Inference(tracker: Tracker, candidates: seq<PitchCandidate>, decode: seq<nat> -> seq<nat>): (f: real)
    requires |tracker.pitchBins| == NBins
    ensures |candidates| == 0 ==> f == -1.0
    ensures |candidates| > 0 && |ObservationsFor(tracker, candidates)| == 0 ==> f == -1.0
    ensures |candidates| > 0 && |ObservationsFor(tracker, candidates)| > 0 ==>
      SettlesOn(decode(ObservationsFor(tracker, candidates)), BinAll(candidates, tracker.pitchBins).realPitches, f)
  {
    if |candidates| == 0 then -1.0
    else
      var binned := BinAll(candidates, tracker.pitchBins);
      var possibleBins := ObservationsFor(tracker, candidates);
      if |possibleBins| == 0 then -1.0
      else
        var path := decode(possibleBins);
        var k := MostFrequent(path);
        assert IsMostFrequent(path, k) && binned.realPitches[k] == binned.realPitches[k];
        binned.realPitches[k]
  }

  /** The tracker reports -1, 0 for a bin no candidate fell into, or the
      frequency of one of the candidates. */
  lemma InferenceReportsCandidate(tracker: Tracker, candidates: seq<PitchCandidate>, decode: seq<nat> -> seq<nat>)
    requires |tracker.pitchBins| == NBins
    ensures var f := Inference(tracker, candidates, decode);
      f == -1.0 || f == 0.0 || exists i :: 0 <= i < |candidates| && candidates[i].frequency == f
  {
    var f := Inference(tracker, candidates, decode);
    if |candidates| > 0 && |ObservationsFor(tracker, candidates)| > 0 {
      var pitches := BinAll(candidates, tracker.pitchBins).realPitches;
      var path := decode(ObservationsFor(tracker, candidates));
      assert SettlesOn(path, pitches, f);
      var k :| 0 <= k < NBins && IsMostFrequent(path, k) && f == pitches[k];
      var last := LastInBin(candidates, tracker.pitchBins, k);
      if last.Some? {
        var i :| 0 <= i < |candidates| && candidates[i] == last.value;
      }
    }
  }

  /** The rescaled slots sum to the trusted share of the primary mass plus
      the unvoiced mass, so together they hold one minus the trusted share of
      whatever mass the overwriting lost. */
  lemma RescaledTotal(b: Binned, yinTrust: real)
    requires WellSized(b) && b.probPitched > 0.0 && b.probs[NStates] == 0.0
    ensures Sum(Rescale(b, yinTrust)) == 1.0 - yinTrust * (b.probPitched - Sum(b.probs[..NBins]))
  {
    var r := Rescale(b, yinTrust);
    var primary, shadow, trailing := r[..NBins], r[NBins..NStates], r[NStates..];
    assert r == primary + shadow + trailing;
    SumAppend(primary + shadow, trailing);
    SumAppend(primary, shadow);
    SumScale(b.probs[..NBins], yinTrust, primary);
    SumConstant(shadow, (1.0 - yinTrust * b.probPitched) / NBins as real);
    assert trailing == [0.0];
    assert Sum(trailing) == Sum([]) + 0.0;
  }

  /** With non-negative candidate probabilities and a non-negative trust, the
      observation masses never exceed one. */
  lemma RescaledMassAtMostOne(tracker: Tracker, candidates: seq<PitchCandidate>)
    requires |tracker.pitchBins| == NBins && tracker.yinTrust >= 0.0
    requires forall c :: c in candidates ==> c.probability >= 0.0
    requires MatchedMass(candidates, tracker.pitchBins) > 0.0
    ensures Sum(Rescale(BinAll(candidates, tracker.pitchBins), tracker.yinTrust)) <= 1.0
  {
    PrimaryMassAtMostMatched(candidates, tracker.pitchBins);
    TrustedLossBounded(BinAll(candidates, tracker.pitchBins), tracker.yinTrust);
  }

  lemma TrustedLossBounded(b: Binned, yinTrust: real)
    requires WellSized(b) && b.probPitched > 0.0 && b.probs[NStates] == 0.0
    requires yinTrust >= 0.0 && Sum(b.probs[..NBins]) <= b.probPitched
    ensures Sum(Rescale(b, yinTrust)) <= 1.0
  {
    RescaledTotal(b, yinTrust);
    NonNegativeProduct(yinTrust, b.probPitched - Sum(b.probs[..NBins]));
  }
}

=== FILE: pyin.dfy ===
/** Probabilistic YIN: the dip search is run at one hundred thresholds, each
    found lag collects the prior weight of the thresholds that found it, the
    lags become weighted pitch candidates, and the pitch tracker picks the
    frequency. */
module Pyin {
  import opened Numeric
  import opened YinCore
  import opened HmmChain
  import opened PitchHmm

  const NThresholds: nat := 100
  const MinThreshold: real := 0.025

  /** The weight the detector's tracker gives to the candidates' mass. */
  const YinTrust: real := 0.5

  /** Prior weight of each threshold: a Beta distribution with mean 0.1,
      alpha 1 and beta 18, tabulated to six decimals. */
  const BetaDistribution: seq<real> := [
    0.000000, 0.029069, 0.048836, 0.061422, 0.068542, 0.071571, 0.071607, 0.069516, 0.065976,
    0.061512, 0.056523, 0.051309, 0.046089, 0.041021, 0.036211, 0.031727, 0.027608, 0.023871,
    0.020517, 0.017534, 0.014903, 0.012601, 0.010601, 0.008875, 0.007393, 0.006130, 0.005059,
    0.004155, 0.003397, 0.002765, 0.002239, 0.001806, 0.001449, 0.001157, 0.000920, 0.000727,
    0.000572, 0.000448, 0.000349, 0.000271, 0.000209, 0.000160, 0.000122, 0.000092, 0.000070,
    0.000052, 0.000039, 0.000029, 0.000021, 0.000015, 0.000011, 0.000008, 0.000006, 0.000004,
    0.000003, 0.000002, 0.000001, 0.000001, 0.000001, 0.000000, 0.000000, 0.000000, 0.000000,
    0.000000, 0.000000, 0.000000, 0.000000, 0.000000, 0.000000, 0.000000, 0.000000, 0.000000,
    0.000000, 0.000000, 0.000000, 0.000000, 0.000000, 0.000000, 0.000000, 0.000000, 0.000000,
    0.000000, 0.000000, 0.000000, 0.000000, 0.000000, 0.000000, 0.000000, 0.000000, 0.000000,
    0.000000, 0.000000, 0.000000, 0.000000, 0.000000, 0.000000, 0.000000, 0.000000, 0.000000,
    0.000000
  ]

  /** The `n`-th threshold, `(n + 1) * 0.025`: 0.025 up to 2.5. */
  function ThresholdAt(n: nat): (t: real)
    ensures t == (n + 1) as real * MinThreshold
    ensures n < NThresholds ==> 0.0 < t <= 2.5
  {
    (n + 1) as real * MinThreshold
  }

  lemma ThresholdsIncrease(m: nat, n: nat)
    requires m <= n
    ensures ThresholdAt(m) <= ThresholdAt(n)
  {
  }

  /** The lag the search finds at the `n`-th threshold, or -1. */
  function FoundAt(b: seq<real>, range: TauRange, n: nat): int
    requires range.end <= |b|
  {
    Threshold(b, ThresholdAt(n), range)
  }

  /** Once a threshold finds a lag every larger threshold does too, so the
      thresholds that find nothing are a prefix of the hundred. */
  lemma FailuresFormPrefix(b: seq<real>, range: TauRange, m: nat, n: nat)
    requires range.end <= |b|
    requires m <= n
    ensures FoundAt(b, range, m) >= 0 ==> FoundAt(b, range, n) >= 0
    ensures FoundAt(b, range, n) < 0 ==> FoundAt(b, range, m) < 0
  {
    ThresholdsIncrease(m, n);
    if FoundAt(b, range, m) >= 0 {
      ThresholdFoundIsMonotone(b, ThresholdAt(m), ThresholdAt(n), range);
    }
  }

  lemma FoundInRange(b: seq<real>, range: TauRange, m: nat)
    requires range.end <= |b|
    ensures FoundAt(b, range, m) >= 0 ==> range.start <= FoundAt(b, range, m) < range.end
  {
  }

  /** The lags the first `n` thresholds find, in threshold order, with -1
      where a threshold finds none. */
  function FoundSeq(b: seq<real>, range: TauRange, n: nat): (s: seq<int>)
    requires range.end <= |b|
    ensures |s| == n
    ensures forall m :: 0 <= m < n ==> s[m] == FoundAt(b, range, m)
  {
    if n == 0 then [] else FoundSeq(b, range, n - 1) + [FoundAt(b, range, n - 1)]
  }

  /** The search results of the hundred thresholds. */
  function Searches(b: seq<real>, range: TauRange): seq<int>
    requires range.end <= |b|
  {
    FoundSeq(b, range, NThresholds)
  }

  /** Every lag in `found` lies in `[lo, end)`. */
  predicate FoundInside(found: seq<int>, lo: nat, end: nat)
  {
    forall m :: 0 <= m < |found| && found[m] >= 0 ==> lo <= found[m] < end
  }

  lemma SearchesInRange(b: seq<real>, range: TauRange)
    requires range.end <= |b|
    ensures |Searches(b, range)| == NThresholds
    ensures FoundInside(Searches(b, range), range.start, range.end)
  {
    forall m | 0 <= m < NThresholds && Searches(b, range)[m] >= 0
      ensures range.start <= Searches(b, range)[m] < range.end
    {
      FoundInRange(b, range, m);
    }
  }

  // ---------------------------------------------------------------------------
  // The lag distribution
  //
  // The distribution is stated over `found`, the lag each threshold's search
  // returns (-1 for none), and the prior weights `prior`, one per threshold;
  // the detector passes `Searches` and `BetaDistribution`.

  /** Prior weight of the first `n` thresholds whose search lands on `tau`. */
  function WeightOf(found: seq<int>, prior: seq<real>, n: nat, tau: nat): real
    requires n <= |found| && n <= |prior|
  {
    if n == 0 then 0.0
    else WeightOf(found, prior, n - 1, tau) + (if found[n - 1] == tau then prior[n - 1] else 0.0)
  }

  /** Prior weight of the first `n` thresholds that find any lag. */
  function FoundMass(found: seq<int>, prior: seq<real>, n: nat): real
    requires n <= |found| && n <= |prior|
  {
    if n == 0 then 0.0
    else FoundMass(found, prior, n - 1) + (if found[n - 1] >= 0 then prior[n - 1] else 0.0)
  }

  /** Some threshold among the first `n` finds `tau`. */
  predicate FoundBy(found: seq<int>, n: nat, tau: nat)
    requires n <= |found|
  {
    exists m :: 0 <= m < n && found[m] == tau
  }

  /** One more threshold adds exactly the lag it finds. */
  lemma FoundByStep(found: seq<int>, n: nat, tau: nat)
    requires 1 <= n <= |found|
    ensures FoundBy(found, n, tau) <==> FoundBy(found, n - 1, tau) || found[n - 1] == tau
  {
    if FoundBy(found, n, tau) && found[n - 1] != tau {
      var m :| 0 <= m < n && found[m] == tau;
      assert 0 <= m < n - 1;
    }
    if FoundBy(found, n - 1, tau) {
      var m :| 0 <= m < n - 1 && found[m] == tau;
      assert 0 <= m < n;
    }
  }

  /** A lag no threshold finds collects no weight. */
  lemma {:induction false} UnfoundLagHasNoWeight(found: seq<int>, prior: seq<real>, n: nat, tau: nat)
    requires n <= |found| && n <= |prior|
    requires !FoundBy(found, n, tau)
    ensures WeightOf(found, prior, n, tau) == 0.0
  {
    if n > 0 {
      var k: nat := n - 1;
      FoundByStep(found, n, tau);
      UnfoundLagHasNoWeight(found, prior, k, tau);
    }
  }

  /** Adds `beta` to the entry of lag `t`, creating it at zero, when `t` is
      a lag; -1 leaves the map unchanged. */
  function AddWeight(prev: map<nat, real>, t: int, beta: real): (next: map<nat, real>)
    ensures forall tau :: tau in next <==> tau in prev || (t >= 0 && tau == t as nat)
  {
    if t >= 0 then prev[t as nat := (if t as nat in prev then prev[t as nat] else 0.0) + beta]
    else prev
  }

  /** An entry after the update is its weight before, plus `beta` for the
      updated lag. */
  lemma AddWeightAt(prev: map<nat, real>, t: int, beta: real, tau: nat, before: real, after: real)
    requires tau in prev ==> prev[tau] == before
    requires tau !in prev ==> before == 0.0
    requires after == before + (if t == tau then beta else 0.0)
    requires tau in AddWeight(prev, t, beta)
    ensures AddWeight(prev, t, beta)[tau] == after
  {
  }

  /** The accumulation over the first `n` thresholds: a map from each found
      lag to the prior weight of the thresholds that found it. */
  function Accumulate(found: seq<int>, prior: seq<real>, n: nat): (dist: map<nat, real>)
    requires n <= |found| && n <= |prior|
    ensures forall tau :: tau in dist <==> FoundBy(found, n, tau)
    ensures forall tau :: tau in dist ==> dist[tau] == WeightOf(found, prior, n, tau)
  {
    if n == 0 then map[]
    else
      var k: nat := n - 1;
      var prev := Accumulate(found, prior, k);
      AddFoundKeys(found, prior, n, prev);
      AddFoundWeights(found, prior, n, prev);
      AddWeight(prev, found[k], prior[k])
  }

  lemma AddFoundKeys(found: seq<int>, prior: seq<real>, n: nat, prev: map<nat, real>)
    requires 1 <= n <= |found| && n <= |prior|
    requires forall tau :: tau in prev <==> FoundBy(found, n - 1, tau)
    ensures forall tau :: tau in AddWeight(prev, found[n - 1], prior[n - 1]) <==> FoundBy(found, n, tau)
  {
    forall tau ensures tau in AddWeight(prev, found[n - 1], prior[n - 1]) <==> FoundBy(found, n, tau) {
      FoundByStep(found, n, tau);
    }
  }

  lemma AddFoundWeights(found: seq<int>, prior: seq<real>, n: nat, prev: map<nat, real>)
    requires 1 <= n <= |found| && n <= |prior|
    requires forall tau :: tau in prev <==> FoundBy(found, n - 1, tau)
    requires forall tau :: tau in prev ==> prev[tau] == WeightOf(found, prior, n - 1, tau)
    ensures forall tau :: tau in AddWeight(prev, found[n - 1], prior[n - 1]) ==>
      AddWeight(prev, found[n - 1], prior[n - 1])[tau] == WeightOf(found, prior, n, tau)
  {
    forall tau | tau in AddWeight(prev, found[n - 1], prior[n - 1])
      ensures AddWeight(prev, found[n - 1], prior[n - 1])[tau] == WeightOf(found, prior, n, tau)
    {
      if tau !in prev {
        UnfoundLagHasNoWeight(found, prior, n - 1, tau);
      }
      AddWeightAt(prev, found[n - 1], prior[n - 1], tau,
                  WeightOf(found, prior, n - 1, tau), WeightOf(found, prior, n, tau));
    }
  }

  /** The accumulated lags lie where the searches' lags lie. */
  lemma AccumulatedLagsInside(found: seq<int>, prior: seq<real>, n: nat, lo: nat, end: nat)
    requires n <= |found| && n <= |prior|
    requires FoundInside(found, lo, end)
    ensures forall tau :: tau in Accumulate(found, prior, n) ==> lo <= tau < end
  {
    forall tau | tau in Accumulate(found, prior, n) ensures lo <= tau < end {
      var m :| 0 <= m < n && found[m] == tau;
    }
  }

  /** The weight of the lags in `[lo, end)`. */
  function MassFrom(found: seq<int>, prior: seq<real>, n: nat, lo: nat, end: nat): real
    requires n <= |found| && n <= |prior|
    decreases end - lo
  {
    if lo >= end then 0.0
    else WeightOf(found, prior, n, lo) + MassFrom(found, prior, n, lo + 1, end)
  }

  /** One more threshold adds its weight to the lags in `[lo, end)` exactly
      when the lag it finds is one of them. */
  lemma {:induction false} MassFromStep(found: seq<int>, prior: seq<real>, n: nat, lo: nat, end: nat)
    requires 1 <= n <= |found| && n <= |prior|
    ensures MassFrom(found, prior, n, lo, end) == MassFrom(found, prior, n - 1, lo, end)
      + (if lo <= found[n - 1] < end then prior[n - 1] else 0.0)
    decreases end - lo
  {
    if lo < end {
      MassFromStep(found, prior, n, lo + 1, end);
    }
  }

  lemma {:induction false} MassFromNone(found: seq<int>, prior: seq<real>, lo: nat, end: nat)
    ensures MassFrom(found, prior, 0, lo, end) == 0.0
    decreases end - lo
  {
    if lo < end {
      MassFromNone(found, prior, lo + 1, end);
    }
  }

  /** When every found lag lies in `[lo, end)`, the weight spread over that
      range is the weight of the thresholds that found something. */
  lemma {:induction false} FoundMassSpreadsOverRange(found: seq<int>, prior: seq<real>, n: nat, lo: nat, end: nat)
    requires n <= |found| && n <= |prior|
    requires FoundInside(found, lo, end)
    ensures FoundMass(found, prior, n) == MassFrom(found, prior, n, lo, end)
  {
    if n == 0 {
      MassFromNone(found, prior, lo, end);
    } else {
      var k: nat := n - 1;
      FoundMassSpreadsOverRange(found, prior, k, lo, end);
      MassFromStep(found, prior, n, lo, end);
    }
  }

  /** With non-negative prior weights, the found mass lies between zero and
      the prior mass, and equals the prior mass when every threshold finds a
      lag. */
  lemma {:induction false} FoundMassAtMostPrior(found: seq<int>, prior: seq<real>, n: nat)
    requires n <= |found| && n <= |prior|
    requires forall k :: 0 <= k < |prior| ==> prior[k] >= 0.0
    ensures 0.0 <= FoundMass(found, prior, n) <= Sum(prior[..n])
    ensures (forall m :: 0 <= m < n ==> found[m] >= 0) ==> FoundMass(found, prior, n) == Sum(prior[..n])
  {
    if n > 0 {
      var k: nat := n - 1;
      FoundMassAtMostPrior(found, prior, k);
      assert prior[..n][..k] == prior[..k];
    }
  }

  // ---------------------------------------------------------------------------
  // Candidates

  /** Every lag any threshold finds has a non-zero interpolated period, so
      the division by it is defined. */
  predicate PeriodsDefined(b: seq<real>, range: TauRange)
    requires 2 <= range.start && range.end <= |b|
  {
    forall m :: 0 <= m < NThresholds && FoundAt(b, range, m) >= 0 ==>
      ParabolicInterpolation(b, FoundAt(b, range, m)) != 0.0
  }

  /** Total probability of a candidate list. */
  function Mass(candidates: seq<PitchCandidate>): real
  {
    if |candidates| == 0 then 0.0 else candidates[0].probability + Mass(candidates[1..])
  }

  /** `c` is the candidate for some lag of `dist` in `[lo, end)`: the sample
      rate over the lag's interpolated period, with the lag's weight. */
  predicate FromLag(b: seq<real>, sampleRate: nat, dist: map<nat, real>, lo: nat, end: nat, c: PitchCandidate)
    requires 1 <= lo && end <= |b|
  {
    exists tau :: lo <= tau < end && tau in dist && ParabolicInterpolation(b, tau) != 0.0
      && c == PitchCandidate(LagFrequency(b, sampleRate, tau), dist[tau])
  }

  lemma FromLagWiden(b: seq<real>, sampleRate: nat, dist: map<nat, real>, lo: nat, end: nat, cs: seq<PitchCandidate>)
    requires 1 <= lo && end <= |b|
    requires forall i :: 0 <= i < |cs| ==> FromLag(b, sampleRate, dist, lo + 1, end, cs[i])
    ensures forall i :: 0 <= i < |cs| ==> FromLag(b, sampleRate, dist, lo, end, cs[i])
  {
    forall i | 0 <= i < |cs| ensures FromLag(b, sampleRate, dist, lo, end, cs[i]) {
      assert FromLag(b, sampleRate, dist, lo + 1, end, cs[i]);
      var tau: nat :| lo + 1 <= tau < end && tau in dist && ParabolicInterpolation(b, tau) != 0.0
        && cs[i] == PitchCandidate(LagFrequency(b, sampleRate, tau), dist[tau]);
    }
  }

  /** The distribution's lags from `lo` upwards, in increasing order, as
      candidates at the sample rate over the interpolated period; a candidate
      whose frequency is zero is dropped. */
  function CandidatesFrom(b: seq<real>, sampleRate: nat, dist: map<nat, real>, lo: nat, end: nat): (cs: seq<PitchCandidate>)
    requires 1 <= lo && end <= |b|
    requires forall tau :: lo <= tau < end && tau in dist ==> ParabolicInterpolation(b, tau) != 0.0
    ensures sampleRate == 0 ==> cs == []
    ensures forall i :: 0 <= i < |cs| ==> cs[i].frequency != 0.0
    ensures forall i :: 0 <= i < |cs| ==> FromLag(b, sampleRate, dist, lo, end, cs[i])
    decreases end - lo
  {
    if lo >= end then []
    else
      var rest := CandidatesFrom(b, sampleRate, dist, lo + 1, end);
      FromLagWiden(b, sampleRate, dist, lo, end, rest);
      if lo in dist && LagFrequency(b, sampleRate, lo) != 0.0 then
        [PitchCandidate(LagFrequency(b, sampleRate, lo), dist[lo])] + rest
      else rest
  }

  lemma QuotientNonZero(a: real, x: real)
    requires a != 0.0 && x != 0.0
    ensures a / x != 0.0
  {
    QuotientTimesDivisor(a, x);
  }

  /** No lag of the distribution in `[lo, end)`: no candidate. */
  lemma {:induction false} CandidatesFromNoLag(b: seq<real>, sampleRate: nat, dist: map<nat, real>, lo: nat, end: nat)
    requires 1 <= lo && end <= |b|
    requires forall tau :: lo <= tau < end ==> tau !in dist
    ensures CandidatesFrom(b, sampleRate, dist, lo, end) == []
    decreases end - lo
  {
    if lo < end {
      CandidatesFromNoLag(b, sampleRate, dist, lo + 1, end);
    }
  }

  /** With a positive sample rate, a lag of the distribution in `[lo, end)`
      yields a candidate. */
  lemma {:induction false} CandidatesFromSomeLag(b: seq<real>, sampleRate: nat, dist: map<nat, real>, lo: nat, end: nat, tau: nat)
    requires 1 <= lo && end <= |b|
    requires forall t :: lo <= t < end && t in dist ==> ParabolicInterpolation(b, t) != 0.0
    requires sampleRate > 0
    requires lo <= tau < end && tau in dist
    ensures |CandidatesFrom(b, sampleRate, dist, lo, end)| > 0
    decreases end - lo
  {
    if lo == tau {
      QuotientNonZero(sampleRate as real, ParabolicInterpolation(b, lo));
    } else {
      CandidatesFromSomeLag(b, sampleRate, dist, lo + 1, end, tau);
    }
  }

  /** The total weight of the lags of `dist` in `[lo, end)`. */
  function DistMass(dist: map<nat, real>, lo: nat, end: nat): real
    decreases end - lo
  {
    if lo >= end then 0.0 else (if lo in dist then dist[lo] else 0.0) + DistMass(dist, lo + 1, end)
  }

  lemma MassCons(c: PitchCandidate, rest: seq<PitchCandidate>)
    ensures Mass([c] + rest) == c.probability + Mass(rest)
  {
    assert ([c] + rest)[1..] == rest;
  }

  lemma LagFrequencyNonZero(b: seq<real>, sampleRate: nat, tau: nat)
    requires 1 <= tau < |b| && ParabolicInterpolation(b, tau) != 0.0
    requires sampleRate > 0
    ensures LagFrequency(b, sampleRate, tau) != 0.0
  {
    QuotientNonZero(sampleRate as real, ParabolicInterpolation(b, tau));
  }

  /** With a positive sample rate no candidate is dropped, so the candidates
      from `lo` carry the whole weight of the lags from `lo`. */
  lemma {:induction false} CandidatesFromMass(b: seq<real>, sampleRate: nat, dist: map<nat, real>, lo: nat, end: nat)
    requires 1 <= lo && end <= |b|
    requires sampleRate > 0
    requires forall tau :: lo <= tau < end && tau in dist ==> ParabolicInterpolation(b, tau) != 0.0
    ensures Mass(CandidatesFrom(b, sampleRate, dist, lo, end)) == DistMass(dist, lo, end)
    decreases end - lo
  {
    if lo < end {
      CandidatesFromMass(b, sampleRate, dist, lo + 1, end);
      var rest := CandidatesFrom(b, sampleRate, dist, lo + 1, end);
      if lo in dist {
        LagFrequencyNonZero(b, sampleRate, lo);
        var c := PitchCandidate(LagFrequency(b, sampleRate, lo), dist[lo]);
        assert CandidatesFrom(b, sampleRate, dist, lo, end) == [c] + rest;
        MassCons(c, rest);
      } else {
        assert CandidatesFrom(b, sampleRate, dist, lo, end) == rest;
      }
    }
  }

  /** The weight of the accumulated lags in `[lo, end)` is the weight the
      thresholds put on those lags. */
  lemma {:induction false} DistMassIsMassFrom(found: seq<int>, prior: seq<real>, n: nat,
                                              dist: map<nat, real>, lo: nat, end: nat)
    requires n <= |found| && n <= |prior|
    requires forall tau :: tau in dist ==> dist[tau] == WeightOf(found, prior, n, tau)
    requires forall tau :: tau !in dist ==> WeightOf(found, prior, n, tau) == 0.0
    ensures DistMass(dist, lo, end) == MassFrom(found, prior, n, lo, end)
    decreases end - lo
  {
    if lo < end {
      DistMassIsMassFrom(found, prior, n, dist, lo + 1, end);
    }
  }

  /** The lag distribution of one frame: the lags the hundred searches
      found, each weighted by the prior of the thresholds that found it. */
  function LagDistribution(b: seq<real>, range: TauRange, prior: seq<real>): (dist: map<nat, real>)
    requires range.end <= |b| && |prior| == NThresholds
    ensures forall tau: nat :: tau in dist <==> exists m :: 0 <= m < NThresholds && FoundAt(b, range, m) == tau
    ensures forall tau :: tau in dist ==> dist[tau] == WeightOf(Searches(b, range), prior, NThresholds, tau)
  {
    var found := Searches(b, range);
    var dist := Accumulate(found, prior, NThresholds);
    assert forall tau: nat :: tau in dist <==> exists m :: 0 <= m < NThresholds && FoundAt(b, range, m) == tau by {
      forall tau: nat
        ensures tau in dist <==> exists m :: 0 <= m < NThresholds && FoundAt(b, range, m) == tau
      {
        assert tau in dist <==> FoundBy(found, NThresholds, tau);
        SearchedIsFound(b, range, tau);
      }
    }
    dist
  }

  lemma SearchedIsFound(b: seq<real>, range: TauRange, tau: nat)
    requires range.end <= |b|
    ensures FoundBy(Searches(b, range), NThresholds, tau)
      <==> exists m :: 0 <= m < NThresholds && FoundAt(b, range, m) == tau
  {
    var found := Searches(b, range);
    if FoundBy(found, NThresholds, tau) {
      var m :| 0 <= m < NThresholds && found[m] == tau;
      assert FoundAt(b, range, m) == tau;
    }
    if exists m :: 0 <= m < NThresholds && FoundAt(b, range, m) == tau {
      var m :| 0 <= m < NThresholds && FoundAt(b, range, m) == tau;
      assert found[m] == tau;
    }
  }

  /** The lags of the distribution lie in the range, and each was found by
      some threshold, so its interpolated period is non-zero. */
  lemma DistributionLags(b: seq<real>, range: TauRange, prior: seq<real>)
    requires 2 <= range.start && range.end <= |b| && |prior| == NThresholds
    requires PeriodsDefined(b, range)
    ensures forall tau :: tau in LagDistribution(b, range, prior) ==>
      range.start <= tau < range.end && ParabolicInterpolation(b, tau) != 0.0
  {
    var found := Searches(b, range);
    SearchesInRange(b, range);
    AccumulatedLagsInside(found, prior, NThresholds, range.start, range.end);
    forall tau | tau in LagDistribution(b, range, prior)
      ensures ParabolicInterpolation(b, tau) != 0.0
    {
      var m :| 0 <= m < NThresholds && found[m] == tau;
      assert FoundAt(b, range, m) == tau;
    }
  }

  /** The candidate list of one frame: one candidate per lag some threshold
      finds, weighted by the prior mass of those thresholds. */
  function ProbabilisticThreshold(b: seq<real>, sampleRate: nat, range: TauRange, prior: seq<real>): (cs: seq<PitchCandidate>)
    requires 2 <= range.start && range.end <= |b| && |prior| == NThresholds
    requires PeriodsDefined(b, range)
    ensures sampleRate == 0 ==> cs == []
    ensures forall i :: 0 <= i < |cs| ==> cs[i].frequency != 0.0
    ensures forall i :: 0 <= i < |cs| ==>
      FromLag(b, sampleRate, LagDistribution(b, range, prior), range.start, range.end, cs[i])
  {
    DistributionLags(b, range, prior);
    CandidatesFrom(b, sampleRate, LagDistribution(b, range, prior), range.start, range.end)
  }

  /** With a positive sample rate, the candidates carry exactly the prior
      weight of the thresholds that found a lag. */
  lemma CandidateMassIsFoundMass(b: seq<real>, sampleRate: nat, range: TauRange, prior: seq<real>)
    requires 2 <= range.start && range.end <= |b| && |prior| == NThresholds
    requires PeriodsDefined(b, range)
    requires sampleRate > 0
    ensures Mass(ProbabilisticThreshold(b, sampleRate, range, prior)) == FoundMass(Searches(b, range), prior, NThresholds)
  {
    var found := Searches(b, range);
    var dist := LagDistribution(b, range, prior);
    DistributionLags(b, range, prior);
    SearchesInRange(b, range);
    forall tau | tau !in dist ensures WeightOf(found, prior, NThresholds, tau) == 0.0 {
      UnfoundLagHasNoWeight(found, prior, NThresholds, tau);
    }
    CandidatesFromMass(b, sampleRate, dist, range.start, range.end);
    DistMassIsMassFrom(found, prior, NThresholds, dist, range.start, range.end);
    FoundMassSpreadsOverRange(found, prior, NThresholds, range.start, range.end);
  }

  /** No value in range below the largest threshold: no threshold finds a
      lag, and there is no candidate. */
  lemma NoDipNoCandidates(b: seq<real>, sampleRate: nat, range: TauRange, prior: seq<real>)
    requires 2 <= range.start && range.end <= |b| && |prior| == NThresholds
    requires PeriodsDefined(b, range)
    requires NoneBelow(b, ThresholdAt(NThresholds - 1), range.start, range.end)
    ensures ProbabilisticThreshold(b, sampleRate, range, prior) == []
  {
    var found := Searches(b, range);
    var dist := LagDistribution(b, range, prior);
    forall tau | range.start <= tau < range.end ensures tau !in dist {
      forall m | 0 <= m < NThresholds ensures found[m] != tau {
        FailuresFormPrefix(b, range, m, NThresholds - 1);
      }
    }
    DistributionLags(b, range, prior);
    CandidatesFromNoLag(b, sampleRate, dist, range.start, range.end);
  }

  /** With a positive sample rate, there is no candidate exactly when no
      value in range is below the largest threshold. */
  lemma NoCandidatesExactlyWhenNoDip(b: seq<real>, sampleRate: nat, range: TauRange, prior: seq<real>)
    requires 2 <= range.start && range.end <= |b| && |prior| == NThresholds
    requires PeriodsDefined(b, range)
    requires sampleRate > 0
    ensures ProbabilisticThreshold(b, sampleRate, range, prior) == []
      <==> NoneBelow(b, ThresholdAt(NThresholds - 1), range.start, range.end)
  {
    if NoneBelow(b, ThresholdAt(NThresholds - 1), range.start, range.end) {
      NoDipNoCandidates(b, sampleRate, range, prior);
    } else {
      var found := Searches(b, range);
      var dist := LagDistribution(b, range, prior);
      DistributionLags(b, range, prior);
      var last: nat := NThresholds - 1;
      var tau := FoundAt(b, range, last);
      FoundInRange(b, range, last);
      assert found[last] == tau;
      assert FoundBy(found, NThresholds, tau as nat);
      CandidatesFromSomeLag(b, sampleRate, dist, range.start, range.end, tau as nat);
    }
  }

  /** The lags of `dist` in `[lo, end)`. */
  function LagsFrom(dist: map<nat, real>, lo: nat, end: nat): set<nat>
  {
    set tau | tau in dist && lo <= tau < end
  }

  /** There is at most one candidate per lag, and with a positive sample
      rate exactly one. */
  lemma {:induction false} CandidatesPerLag(b: seq<real>, sampleRate: nat, dist: map<nat, real>, lo: nat, end: nat)
    requires 1 <= lo && end <= |b|
    requires forall tau :: lo <= tau < end && tau in dist ==> ParabolicInterpolation(b, tau) != 0.0
    ensures |CandidatesFrom(b, sampleRate, dist, lo, end)| <= |LagsFrom(dist, lo, end)|
    ensures sampleRate > 0 ==> |CandidatesFrom(b, sampleRate, dist, lo, end)| == |LagsFrom(dist, lo, end)|
    decreases end - lo
  {
    if lo < end {
      CandidatesPerLag(b, sampleRate, dist, lo + 1, end);
      var rest := CandidatesFrom(b, sampleRate, dist, lo + 1, end);
      if lo in dist {
        assert LagsFrom(dist, lo, end) == LagsFrom(dist, lo + 1, end) + {lo};
        assert lo !in LagsFrom(dist, lo + 1, end);
        if sampleRate > 0 {
          LagFrequencyNonZero(b, sampleRate, lo);
          var c := PitchCandidate(LagFrequency(b, sampleRate, lo), dist[lo]);
          assert CandidatesFrom(b, sampleRate, dist, lo, end) == [c] + rest;
        }
      } else {
        assert LagsFrom(dist, lo, end) == LagsFrom(dist, lo + 1, end);
        assert CandidatesFrom(b, sampleRate, dist, lo, end) == rest;
      }
    }
  }

  /** With a positive sample rate every lag of the map in `[lo, end)` yields
      the candidate carrying its frequency and its weight. */
  lemma {:induction false} CandidatesFromComplete(b: seq<real>, sampleRate: nat, dist: map<nat, real>, lo: nat, end: nat, tau: nat)
    requires 1 <= lo && end <= |b|
    requires forall t :: lo <= t < end && t in dist ==> ParabolicInterpolation(b, t) != 0.0
    requires sampleRate > 0
    requires lo <= tau < end && tau in dist
    ensures PitchCandidate(LagFrequency(b, sampleRate, tau), dist[tau]) in CandidatesFrom(b, sampleRate, dist, lo, end)
    decreases end - lo
  {
    var rest := CandidatesFrom(b, sampleRate, dist, lo + 1, end);
    if lo == tau {
      LagFrequencyNonZero(b, sampleRate, lo);
      var c := PitchCandidate(LagFrequency(b, sampleRate, lo), dist[lo]);
      assert CandidatesFrom(b, sampleRate, dist, lo, end) == [c] + rest;
    } else {
      CandidatesFromComplete(b, sampleRate, dist, lo + 1, end, tau);
      if lo in dist {
        LagFrequencyNonZero(b, sampleRate, lo);
        var c := PitchCandidate(LagFrequency(b, sampleRate, lo), dist[lo]);
        assert CandidatesFrom(b, sampleRate, dist, lo, end) == [c] + rest;
      } else {
        assert CandidatesFrom(b, sampleRate, dist, lo, end) == rest;
      }
    }
  }

  /** The non-negative entries of `s`, as a set; there are at most `|s|`. */
  function NonNegatives(s: seq<int>): (r: set<nat>)
    ensures |r| <= |s|
  {
    if |s| == 0 then {}
    else
      var prev := NonNegatives(s[..|s| - 1]);
      var t := s[|s| - 1];
      if t >= 0 then prev + {t as nat} else prev
  }

  lemma {:induction false} EntryInNonNegatives(s: seq<int>, i: nat)
    requires i < |s| && s[i] >= 0
    ensures s[i] as nat in NonNegatives(s)
    decreases |s|
  {
    if i < |s| - 1 {
      assert s[..|s| - 1][i] == s[i];
      EntryInNonNegatives(s[..|s| - 1], i);
    }
  }

  lemma SubsetCard(a: set<nat>, c: set<nat>)
    requires a <= c
    ensures |a| <= |c|
  {
    assert c == a + (c - a);
  }

  /** A set of lags each found by one of the searches has at most as many
      members as there are searches. */
  lemma FoundLagsAtMost(found: seq<int>, lags: set<nat>)
    requires forall tau :: tau in lags ==> FoundBy(found, |found|, tau)
    ensures |lags| <= |found|
  {
    forall tau | tau in lags
      ensures tau in NonNegatives(found)
    {
      var m :| 0 <= m < |found| && found[m] == tau;
      EntryInNonNegatives(found, m);
    }
    SubsetCard(lags, NonNegatives(found));
  }

  /** The hundred thresholds give at most a hundred candidates. */
  lemma CandidatesAtMostThresholds(b: seq<real>, sampleRate: nat, range: TauRange, prior: seq<real>)
    requires 2 <= range.start && range.end <= |b| && |prior| == NThresholds
    requires PeriodsDefined(b, range)
    ensures |ProbabilisticThreshold(b, sampleRate, range, prior)| <= NThresholds
  {
    var dist := LagDistribution(b, range, prior);
    DistributionLags(b, range, prior);
    CandidatesPerLag(b, sampleRate, dist, range.start, range.end);
    FoundLagsAtMost(Searches(b, range), LagsFrom(dist, range.start, range.end));
  }

  /** With a positive sample rate the frame's candidates are one per lag of
      its distribution: each lag yields the candidate with its frequency and
      its accumulated weight, and there are as many candidates as lags. */
  lemma CandidatesOnePerLag(b: seq<real>, sampleRate: nat, range: TauRange, prior: seq<real>)
    requires 2 <= range.start && range.end <= |b| && |prior| == NThresholds
    requires PeriodsDefined(b, range)
    requires sampleRate > 0
    ensures var dist := LagDistribution(b, range, prior);
      forall tau :: tau in dist ==>
        ParabolicInterpolation(b, tau) != 0.0 && 1 <= tau < |b| &&
        PitchCandidate(LagFrequency(b, sampleRate, tau), dist[tau]) in ProbabilisticThreshold(b, sampleRate, range, prior)
    ensures |ProbabilisticThreshold(b, sampleRate, range, prior)| == |LagsFrom(LagDistribution(b, range, prior), range.start, range.end)|
  {
    var dist := LagDistribution(b, range, prior);
    DistributionLags(b, range, prior);
    CandidatesPerLag(b, sampleRate, dist, range.start, range.end);
    forall tau | tau in dist
      ensures PitchCandidate(LagFrequency(b, sampleRate, tau), dist[tau]) in ProbabilisticThreshold(b, sampleRate, range, prior)
    {
      CandidatesFromComplete(b, sampleRate, dist, range.start, range.end, tau);
    }
  }

  /** On an ordered range the search as written succeeds at every threshold
      with the result the searches above hold, so everything built on them
      agrees with the source there. */
  lemma SearchesAgreeOnOrderedRanges(b: seq<real>, range: TauRange)
    requires range.start <= range.end <= |b|
    ensures forall m :: 0 <= m < NThresholds ==>
      ThresholdAsWritten(b, ThresholdAt(m), range) == Success(Searches(b, range)[m])
  {
    forall m | 0 <= m < NThresholds
      ensures ThresholdAsWritten(b, ThresholdAt(m), range) == Success(Searches(b, range)[m])
    {
      ThresholdAgreesOnOrderedRanges(b, ThresholdAt(m), range);
    }
  }

  // ---------------------------------------------------------------------------
  // The detector

  /** `f` is the sample rate over the interpolated period of the lag that
      some threshold's search returned. */
  predicate IsLagFrequency(b: seq<real>, sampleRate: nat, range: TauRange, f: real)
    requires 2 <= range.start && range.end <= |b|
  {
    exists m :: 0 <= m < NThresholds && range.start <= FoundAt(b, range, m) < range.end
      && ParabolicInterpolation(b, FoundAt(b, range, m)) != 0.0
      && f == LagFrequency(b, sampleRate, FoundAt(b, range, m))
  }

  /** The detector on a normalised difference buffer: candidates from the
      hundred thresholds weighted by the Beta prior, then the tracker over
      the given reference frequencies; -1 when there is nothing to track.
      `decode` is the tracker's Viterbi decoding. */
  function PitchOf(b: seq<real>, sampleRate: nat, band: Option<FrequencyRange>, bins: seq<real>,
                   decode: seq<nat> -> seq<nat>): (f: real)
    requires |bins| == NBins && ValidFrequencyRange(band)
    requires PeriodsDefined(b, CalculateTauRange(|b|, sampleRate, band))
    ensures sampleRate == 0 ==> f == -1.0
    ensures var range := CalculateTauRange(|b|, sampleRate, band);
      NoneBelow(b, ThresholdAt(NThresholds - 1), range.start, range.end) ==> f == -1.0
  {
    var range := CalculateTauRange(|b|, sampleRate, band);
    var candidates := ProbabilisticThreshold(b, sampleRate, range, BetaDistribution);
    assert NoneBelow(b, ThresholdAt(NThresholds - 1), range.start, range.end) ==> candidates == [] by {
      if NoneBelow(b, ThresholdAt(NThresholds - 1), range.start, range.end) {
        NoDipNoCandidates(b, sampleRate, range, BetaDistribution);
      }
    }
    Inference(Tracker(bins, YinTrust), candidates, decode)
  }

  /** A candidate built from a lag of the distribution has the frequency of
      a lag some threshold found. */
  lemma FromLagIsLagFrequency(b: seq<real>, sampleRate: nat, range: TauRange, prior: seq<real>, c: PitchCandidate)
    requires 2 <= range.start && range.end <= |b| && |prior| == NThresholds
    requires FromLag(b, sampleRate, LagDistribution(b, range, prior), range.start, range.end, c)
    ensures IsLagFrequency(b, sampleRate, range, c.frequency)
  {
    var dist := LagDistribution(b, range, prior);
    var tau: nat :| range.start <= tau < range.end && tau in dist && ParabolicInterpolation(b, tau) != 0.0
      && c == PitchCandidate(LagFrequency(b, sampleRate, tau), dist[tau]);
    var m :| 0 <= m < NThresholds && FoundAt(b, range, m) == tau;
    assert range.start <= FoundAt(b, range, m) < range.end;
  }

  /** The detector reports -1 (nothing to track), 0 (the tracker settled on
      a bin no candidate fell into) or the frequency of a lag some threshold
      found. */
  lemma PitchIsFoundLagFrequency(b: seq<real>, sampleRate: nat, band: Option<FrequencyRange>, bins: seq<real>,
                                 decode: seq<nat> -> seq<nat>)
    requires |bins| == NBins && ValidFrequencyRange(band)
    requires PeriodsDefined(b, CalculateTauRange(|b|, sampleRate, band))
    ensures var f := PitchOf(b, sampleRate, band, bins, decode);
      f == -1.0 || f == 0.0 || IsLagFrequency(b, sampleRate, CalculateTauRange(|b|, sampleRate, band), f)
  {
    var range := CalculateTauRange(|b|, sampleRate, band);
    var cs := ProbabilisticThreshold(b, sampleRate, range, BetaDistribution);
    var f := PitchOf(b, sampleRate, band, bins, decode);
    assert f == Inference(Tracker(bins, YinTrust), cs, decode);
    InferenceReportsCandidate(Tracker(bins, YinTrust), cs, decode);
    if f != -1.0 && f != 0.0 {
      var i :| 0 <= i < |cs| && cs[i].frequency == f;
      FromLagIsLagFrequency(b, sampleRate, range, BetaDistribution, cs[i]);
    }
  }

  /** The detector end to end: preprocessing of the frame, then the
      detection on the normalised difference buffer. */
  function Pitch(core: Core, audio: seq<real>, r: seq<real>, band: Option<FrequencyRange>, bins: seq<real>,
                 decode: seq<nat> -> seq<nat>): (res: Result<real, Error>)
    requires |r| == core.inputSize
    requires core.BufferSize() >= 1 ==> CmndDefined(Difference(r, core.BufferSize()))
    requires |bins| == NBins && ValidFrequencyRange(band)
    requires |audio| == core.inputSize && core.BufferSize() >= 1 ==>
      PeriodsDefined(Preprocess(core, audio, r).value, CalculateTauRange(core.BufferSize(), core.sampleRate, band))
    ensures res.Failure? <==> Preprocess(core, audio, r).Failure?
    ensures res.Failure? ==> res.error == Preprocess(core, audio, r).error
    ensures res.Success? ==> res.value == PitchOf(Preprocess(core, audio, r).value, core.sampleRate, band, bins, decode)
  {
    match Preprocess(core, audio, r)
    case Failure(e) => Failure(e)
    case Success(b) => Success(PitchOf(b, core.sampleRate, band, bins, decode))
  }
}

=== FILE: yin.dfy ===
/** Plain YIN: the first dip of the normalised difference below a fixed
    threshold, refined by parabolic interpolation and turned into a
    frequency; 0 when no dip is found. */
module Yin {
  import opened Numeric
  import opened YinCore

  /** The interpolated period at a found lag is non-zero, so the division
      by it is defined. */
  predicate PeriodDefined(b: seq<real>, threshold: real, range: TauRange)
    requires 2 <= range.start && range.end <= |b|
  {
    var tau := Threshold(b, threshold, range);
    tau >= 0 ==> ParabolicInterpolation(b, tau) != 0.0
  }

  /** The frequency for a normalised difference buffer. */
  function PitchOf(b: seq<real>, sampleRate: nat, threshold: real, range: TauRange): (f: real)
    requires 2 <= range.start && range.end <= |b|
    requires PeriodDefined(b, threshold, range)
    ensures NoneBelow(b, threshold, range.start, range.end) ==> f == 0.0
    ensures Threshold(b, threshold, range) >= 0 ==>
      f == sampleRate as real / ParabolicInterpolation(b, Threshold(b, threshold, range))
  {
    var tau := Threshold(b, threshold, range);
    if tau >= 0 then sampleRate as real / ParabolicInterpolation(b, tau) else 0.0
  }

  /** With a positive sample rate, the result is 0 exactly when no lag in
      range is below the threshold. */
  lemma NoPitchExactlyWhenNoDip(b: seq<real>, sampleRate: nat, threshold: real, range: TauRange)
    requires 2 <= range.start && range.end <= |b|
    requires PeriodDefined(b, threshold, range)
    requires sampleRate > 0
    ensures PitchOf(b, sampleRate, threshold, range) == 0.0 <==> NoneBelow(b, threshold, range.start, range.end)
  {
    var tau := Threshold(b, threshold, range);
    if tau >= 0 {
      QuotientTimesDivisor(sampleRate as real, ParabolicInterpolation(b, tau));
      ZeroProduct(sampleRate as real / ParabolicInterpolation(b, tau), ParabolicInterpolation(b, tau));
    }
  }

  /** A non-zero frequency comes from a dip in range (a lag whose value is
      below the threshold), and is the sample rate over that lag's refined
      period. Without a band the range is `[2, |b|)`. */
  lemma PitchComesFromDip(b: seq<real>, sampleRate: nat, threshold: real, band: Option<FrequencyRange>)
    requires ValidFrequencyRange(band)
    requires PeriodDefined(b, threshold, CalculateTauRange(|b|, sampleRate, band))
    ensures var range := CalculateTauRange(|b|, sampleRate, band);
      PitchOf(b, sampleRate, threshold, range) != 0.0 ==>
        exists tau :: IsDip(b, threshold, range.start, range.end, tau)
          && ParabolicInterpolation(b, tau) != 0.0
          && PitchOf(b, sampleRate, threshold, range) == LagFrequency(b, sampleRate, tau)
    ensures band.None? ==> CalculateTauRange(|b|, sampleRate, band) == TauRange(2, |b|)
  {
    var range := CalculateTauRange(|b|, sampleRate, band);
    var tau := Threshold(b, threshold, range);
    if tau >= 0 {
      assert PitchOf(b, sampleRate, threshold, range) == LagFrequency(b, sampleRate, tau);
    }
  }

  /** When the found lag is a local minimum away from the buffer's ends, the
      interpolated period is within half a sample of it, hence positive, and
      the frequency lies between the sample rate over the neighbouring half
      lags. */
  lemma PitchNearLag(b: seq<real>, sampleRate: nat, threshold: real, range: TauRange)
    requires 2 <= range.start && range.end <= |b|
    requires var tau := Threshold(b, threshold, range);
      tau >= 0 && tau + 1 < |b| && b[tau] <= b[tau - 1] && b[tau] <= b[tau + 1]
    ensures PeriodDefined(b, threshold, range)
    ensures Brackets(PitchOf(b, sampleRate, threshold, range), Threshold(b, threshold, range), sampleRate)
  {
    InterpolationWithinHalfSample(b, Threshold(b, threshold, range));
    QuotientBounds(sampleRate, ParabolicInterpolation(b, Threshold(b, threshold, range)),
                   Threshold(b, threshold, range), PitchOf(b, sampleRate, threshold, range));
  }

  lemma ZeroProduct(a: real, b: real)
    ensures a == 0.0 ==> a * b == 0.0
  {
  }

  /** The frequency `f` lies between the sample rate over the half lags
      either side of `tau`. */
  predicate Brackets(f: real, tau: int, sampleRate: nat)
  {
    f * (tau as real - 0.5) <= sampleRate as real <= f * (tau as real + 0.5)
  }

  /** A quotient by a divisor within half a unit of `tau` is bracketed by
      the dividend over the neighbouring half units. */
  lemma QuotientBounds(sampleRate: nat, x: real, tau: int, q: real)
    requires tau >= 1 && tau as real - 0.5 <= x <= tau as real + 0.5
    requires q == sampleRate as real / x
    ensures Brackets(q, tau, sampleRate)
  {
    var s, lo, hi := sampleRate as real, tau as real - 0.5, tau as real + 0.5;
    QuotientTimesDivisor(s, x);
    assert q >= 0.0;
    assert q * hi - s == q * (hi - x);
    NonNegativeProduct(q, hi - x);
    assert s - q * lo == q * (x - lo);
    NonNegativeProduct(q, x - lo);
  }

  /** The interpolated period at the lag the search as written returns is
      non-zero. */
  predicate PeriodDefinedAsWritten(b: seq<real>, threshold: real, range: TauRange)
    requires 2 <= range.start && range.end <= |b|
  {
    var r := ThresholdAsWritten(b, threshold, range);
    r.Success? && r.value >= 0 ==> ParabolicInterpolation(b, r.value) != 0.0
  }

  /** The frequency for a normalised difference buffer, with the search as
      written: it fails where that search reads past the buffer, agrees with
      `PitchOf` on every ordered range, and on a reversed range reports the
      frequency of lag `start` whenever `b[start]` is below the threshold. */
  function PitchOfAsWritten(b: seq<real>, sampleRate: nat, threshold: real, range: TauRange): (res: Result<real, Error>)
    requires 2 <= range.start && range.end <= |b|
    requires PeriodDefinedAsWritten(b, threshold, range)
    ensures res.Failure? <==> range.start > range.end && range.start >= |b|
    ensures range.start <= range.end ==>
      PeriodDefined(b, threshold, range) && res == Success(PitchOf(b, sampleRate, threshold, range))
    ensures range.end < range.start < |b| ==>
      res == Success(if b[range.start] < threshold then LagFrequency(b, sampleRate, range.start) else 0.0)
  {
    assert range.start <= range.end ==>
      ThresholdAsWritten(b, threshold, range) == Success(Threshold(b, threshold, range)) by {
      if range.start <= range.end {
        ThresholdAgreesOnOrderedRanges(b, threshold, range);
      }
    }
    match ThresholdAsWritten(b, threshold, range)
    case Failure(e) => Failure(e)
    case Success(tau) => if tau >= 0 then Success(LagFrequency(b, sampleRate, tau)) else Success(0.0)
  }

  /** The buffer `[1, 1, 0.05, 1]` on the reversed range `[2, 1)`: with the
      search as written the detector reports 22050 Hz at 44.1 kHz, from lag 2
      outside the range, where the corrected detector reports 0. */
  lemma AsWrittenReportsLagOutsideRange()
    ensures var b := [1.0, 1.0, 0.05, 1.0];
      && PeriodDefinedAsWritten(b, 0.1, TauRange(2, 1))
      && PitchOfAsWritten(b, 44100, 0.1, TauRange(2, 1)) == Success(22050.0)
      && PitchOf(b, 44100, 0.1, TauRange(2, 1)) == 0.0
  {
    var b := [1.0, 1.0, 0.05, 1.0];
    ThresholdAsWrittenEscapesRange();
    assert ParabolicInterpolation(b, 2) == 2.0;
  }

  /** The detector end to end: preprocessing of the frame, the lag range for
      the optional band, the search and the conversion to a frequency. */
  function Pitch(core: Core, audio: seq<real>, r: seq<real>, threshold: real, band: Option<FrequencyRange>): (res: Result<real, Error>)
    requires |r| == core.inputSize
    requires core.BufferSize() >= 1 ==> CmndDefined(Difference(r, core.BufferSize()))
    requires ValidFrequencyRange(band)
    requires |audio| == core.inputSize && core.BufferSize() >= 1 ==>
      PeriodDefined(Preprocess(core, audio, r).value, threshold,
                    CalculateTauRange(core.BufferSize(), core.sampleRate, band))
    ensures res.Failure? <==> Preprocess(core, audio, r).Failure?
    ensures res.Failure? ==> res.error == Preprocess(core, audio, r).error
    ensures res.Success? ==>
      var b := Preprocess(core, audio, r).value;
      var range := CalculateTauRange(|b|, core.sampleRate, band);
      res.value == PitchOf(b, core.sampleRate, threshold, range)
  {
    match Preprocess(core, audio, r)
    case Failure(e) => Failure(e)
    case Success(b) =>
      var range := CalculateTauRange(|b|, core.sampleRate, band);
      Success(PitchOf(b, core.sampleRate, threshold, range))
  }
}
